=== FILE: README.md ===
# Twitch chat task-list widget, modelled in Dafny

The widget is a task list that sits on a stream overlay. Moderators and the
channel owner edit it with `!todo` chat commands. The model covers three
pieces of pure logic.

1. **The chat hook.** It does four things:
   - it writes the three handshake lines sent when the connection opens;
   - it routes each inbound frame: a `PING` is answered, a `PRIVMSG` is parsed, anything else is ignored;
   - it parses an IRCv3-tagged `PRIVMSG` line into a display name, the Twitch `mod` flag, the broadcaster flag and the message body;
   - it classifies a `!todo` message into at most one of five callbacks: add, delete, toggle, clear, and show/hide the widget.
2. **The widget's handlers.** Each handler has its own authorization gate. The handlers are add, delete and toggle (a task named by a 1-based ordinal or by a case-insensitive substring of its text), clear, and the visibility flip.
3. **The settings panel's moderator list.** Adding stores the trimmed input when it is non-blank and not already listed. Removing filters out every equal entry.

`Pipeline.Step` chains these: one frame goes through the hook and then the fired callback, sequentially.
Two authorization gates apply, and a command changes the list only when BOTH pass:
- the hook's gate: broadcaster, Twitch moderator, or the lower-cased name listed *verbatim*;
- the widget's gate: the owner, or a name in the lower-cased list.

`Pipeline.EffectiveAuthorization` states the conjunction in closed form. One consequence: a Twitch moderator who is not configured changes nothing. Another: a configured entry written with capitals admits its user only if that user is also a Twitch moderator.

Modules:
- `Text`: ASCII character classes, lower-casing, `trim`, `startsWith`, `indexOf` and `includes`.
- `Words`: `split` and `join` on one character.
- `Numbers`: `parseInt` and decimal rendering.
- `Chat`: the parser.
- `ChatLines`: lines laid out as a tagged `PRIVMSG`, alone or followed by further lines, and the proof that the parser recovers their parts.
- `Commands`: the handshake, routing and `handleCommand`.
- `Todos`: the widget handlers.
- `App`: the moderator list.
- `Pipeline`: the composition.
- `Scenarios`: concrete frames and what the model proves about them.

How the parser's regular expression `@(.+?(?=\s:)).*PRIVMSG #\w+ :(.*)` is modelled:
- It is modelled by structure, not by a regex engine.
- A match starts at the leftmost `@` from which the rest can match.
- The tag block is lazy: it is non-empty and ends at the first whitespace followed by `:`.
- `.` never crosses a line terminator.
- Because the gap `.*` is greedy, the body follows the LAST `PRIVMSG #<word> :` marker on that line and runs to the end of the line.

`ChatLines.ParseFormatted` shows that for a line of the form
`@<tags> :<prefix> PRIVMSG #<channel> :<body>` the parser returns exactly `<tags>` and `<body>`. This holds when:
- the tag block is non-empty and has no whitespace and no line terminator;
- the prefix has no line terminator;
- the channel is lower-case word characters;
- the body has no line terminator and contains no `PRIVMSG #`;
- the line ends the frame, or is followed by a line terminator and anything after it, as in `...:<body>\r\n` or a batch of several lines (`ChatLines.ParseBatched`).

A body that does hold a marker is cut at its last one.

The tag lookups `key=([^;]+)` are not anchored at a key boundary. When a sender's own `display-name` is empty, the lookup skips it and can take the value of a later key that ends in `display-name`. Twitch's replies carry such a key, `reply-parent-display-name`. `Scenarios.EmptyNameReplyReadAsOwner` and `Scenarios.EmptyNameReplyClears` work this through for a reply to the channel owner: the sender is read as the owner and clears the list.

The help text of the widget advertises `!task`, but the code checks for `!todo`; the model follows the code.

## Model

| member | source | states |
|---|---|---|
| Commands.Handshake | src/hooks/useTwitchCommands.ts:39-45 | Exactly three lines in order: the capability request, `NICK justinfan` followed by one to five digits, without a leading zero, that denote the random roll and that `parseInt` reads back as it, and `JOIN #` followed by the channel name lower-cased (equal to it ignoring case, no upper-case letter left) |
| Commands.NickLine | src/hooks/useTwitchCommands.ts:42 | The nick line is `NICK justinfan` followed by one to five digits with no leading zero; they denote the roll, and `parseInt` reads them back as it |
| Commands.JoinLine | src/hooks/useTwitchCommands.ts:43 | The join line is `JOIN #` plus a lower-case copy of the channel name of the same length |
| Commands.OnMessage | src/hooks/useTwitchCommands.ts:47-61 | A frame containing `PING` anywhere is answered with exactly `PONG :tmi.twitch.tv` and is never parsed, even a chat line that mentions PING; a frame with neither `PING` nor `PRIVMSG` is ignored; a fired callback is always what `handleCommand` yields for the parsed message |
| Commands.RoutingComplete | src/hooks/useTwitchCommands.ts:55-59 | Without `PING`, a frame fires a callback exactly when it parses and `handleCommand` fires on it: the `PRIVMSG` filter loses no parseable frame |
| Commands.ParsedMentionsPrivmsg | src/hooks/useTwitchCommands.ts:55-57 | Every frame the parser accepts contains `PRIVMSG` |
| Chat.TagEnd | src/hooks/useTwitchCommands.ts:97 | The lazy tag block closes at the first whitespace followed by `:` on the current line, or nowhere when there is none |
| Chat.LastMarker | src/hooks/useTwitchCommands.ts:97 | The greedy gap reaches the last `PRIVMSG #<word> :` marker in range; no marker lies after it, and none at all when it finds nothing |
| Chat.LineEnd | src/hooks/useTwitchCommands.ts:97 | Where `.` stops: the first line terminator at or after the position, or the end of the frame; nothing before it ends the line |
| Chat.MatchAt | src/hooks/useTwitchCommands.ts:97 | The match from one `@`; it has no contract of its own: Chat.MatchAtShape and Chat.MatchAtTags state its shape and its first capture, and Chat.LastMarker and Chat.LineEnd fix where the second capture starts and stops |
| Chat.MatchFrom | src/hooks/useTwitchCommands.ts:97 | The leftmost starting position that admits a match is the one used and no earlier position admits one; there is no match only when no position admits one |
| Chat.MatchLine | src/hooks/useTwitchCommands.ts:97-98 | A match implies an `@` and a `PRIVMSG #` marker in the line, a non-empty tag block, and tag block and body without line terminators |
| Chat.MatchAtShape | src/hooks/useTwitchCommands.ts:97 | A match at a position starts with `@`, has a non-empty one-line tag block and a one-line body, and the line contains a marker |
| Chat.MatchAtTags | src/hooks/useTwitchCommands.ts:97 | The first capture group is the text after the `@` up to the first whitespace that is followed by `:` |
| Chat.TagValueFrom | src/hooks/useTwitchCommands.ts:104-109 | `key=([^;]+)` yields the value after the first `key=` that is followed by a character other than `;`, running to the next `;` or the end; nothing when no such `key=` exists |
| Chat.TagValue | src/hooks/useTwitchCommands.ts:104-108 | `tagsString.match(/key=([^;]+)/)` is the lookup from the start of the tag block; a value it finds is non-empty and holds no `;` |
| Chat.ParseTwitchMessage | src/hooks/useTwitchCommands.ts:94-124 | Returns nothing exactly when the line lacks the tagged `PRIVMSG` shape; the message is the body; the username is the value after the first `display-name=` that carries one, which may sit inside a longer key such as `reply-parent-display-name`, and `Anonymous` only when no such `display-name=` exists; `isMod` holds iff the value after the first valued `mod=` is exactly `1`; `isBroadcaster` holds iff the username equals the channel name ignoring case |
| ChatLines.ParseFormatted | src/hooks/useTwitchCommands.ts:97-101 | A line `@tags :prefix PRIVMSG #channel :body` with a space-free one-line tag block, a one-line prefix, a word channel and a one-line body without `PRIVMSG #` parses back to exactly that tag block and body, whether the frame ends there or continues after a line terminator |
| ChatLines.ParseBatched | src/hooks/useTwitchCommands.ts:97-101 | In a frame `<line>\r\n<more>` the parser reports the first line's tag block and body, whatever follows |
| ChatLines.TagValueFound | src/hooks/useTwitchCommands.ts:104-109 | The tag lookup finds the value written after the first `key=` that carries a value |
| ChatLines.ValueAtParts | src/hooks/useTwitchCommands.ts:104-108 | A `key=value` pair ended by `;` or by the end of the tag block is found at the position where it was written |
| Commands.KindOf | src/hooks/useTwitchCommands.ts:142-180 | A keyword maps to a callback exactly when it is one of that callback's synonyms (add; delete/del/remove/rm; done/complete/check/toggle; clear/reset; hide/show/toggle-widget); every other keyword maps to nothing |
| Commands.HandleCommand | src/hooks/useTwitchCommands.ts:126-181 | A callback fires only for a body starting with `!todo` from a broadcaster, a Twitch moderator or a sender whose lower-cased name is listed as is; it carries the sender's name and the text after the second space; its lower-cased keyword is one of its synonyms; add, delete and toggle never fire with empty text. Conversely, for a `!todo` body with a space from a sender the hook admits, a known keyword fires its callback with the text after the second space unless that callback needs text and there is none |
| Commands.WordsOfBody | src/hooks/useTwitchCommands.ts:136-140 | `split(' ')` has a second part exactly when the body has a space; that part is the text between the first two spaces, and re-joining the parts after it gives the text after the second space |
| Commands.WordsOfCommand | src/hooks/useTwitchCommands.ts:136-140 | For `!todo <word> <argument>` the second part is the word and the re-joined remainder is the argument, spaces included |
| Commands.CommandOfWords | src/hooks/useTwitchCommands.ts:139-180 | For an authorized sender, `!todo <word> <argument>` fires the callback whose synonyms hold the lower-cased word, with the argument as text, unless that callback needs text and the argument is empty; an unknown word fires nothing |
| Commands.BareCommand | src/hooks/useTwitchCommands.ts:137-176 | `!todo <word>` with nothing after it fires only clear and hide/show, with empty text |
| Commands.HookGate | src/hooks/useTwitchCommands.ts:133 | The hook admits the broadcaster, a Twitch moderator, or a sender whose lower-cased name equals a list entry as stored; an entry with capitals admits nobody that way; the name's own case does not matter; a sender admitted through the list is also on the widget's list |
| Commands.Silent | src/hooks/useTwitchCommands.ts:130-134 | No callback fires for a body not starting with `!todo` or for a sender the hook's gate rejects |
| Words.Split | src/hooks/useTwitchCommands.ts:136 | `split(' ')` yields at least one part and no part contains the separator |
| Words.Join | src/hooks/useTwitchCommands.ts:140 | `join(' ')` starts with the first part |
| Words.SplitCount | src/hooks/useTwitchCommands.ts:136 | `split` has exactly one more part than the string has separators |
| Words.JoinCount | src/hooks/useTwitchCommands.ts:140 | Joining separator-free parts puts exactly one separator between each pair of neighbours and no other |
| Words.SplitJoin | src/hooks/useTwitchCommands.ts:136 | Joining a non-empty list of separator-free parts and splitting again gives the parts back, so `split` and `join` are mutually inverse |
| Words.JoinSplit | src/hooks/useTwitchCommands.ts:140 | Joining the parts of a split with the same separator gives back the string |
| Numbers.ParseInt | src/components/TodoWidget.tsx:48 | `parseInt` is NaN when the token has no digit, and negative only when the token holds a minus sign |
| Numbers.ParseDecimal | src/components/TodoWidget.tsx:48-49 | `parseInt` reads a decimal number back past leading whitespace and up to the first non-digit, so "2", " 2" and "2nd" all give 2 |
| Numbers.DecimalString | src/hooks/useTwitchCommands.ts:42 | The rendering of a non-negative integer is a non-empty run of digits without a leading zero |
| Numbers.DecimalValue | src/hooks/useTwitchCommands.ts:42 | The digits of the rendering denote the number |
| Numbers.FiveDigits | src/hooks/useTwitchCommands.ts:42 | A roll below 100000 renders in one to five digits |
| Todos.AddTodo | src/components/TodoWidget.tsx:108-118 | Exactly one task is appended, with the given text and not completed; the earlier tasks are unchanged and in order |
| Todos.DeleteTodo | src/components/TodoWidget.tsx:120-122 | Removes exactly the element at the index and keeps the others in order; an out-of-range index leaves the list unchanged |
| Todos.ToggleTodo | src/components/TodoWidget.tsx:124-130 | Same length and texts; `completed` differs exactly at the index |
| Todos.ToggleTwice | src/components/TodoWidget.tsx:124-130 | Toggling the same index twice is the identity |
| Todos.FindMention | src/components/TodoWidget.tsx:54-56 | The first task whose lower-cased text contains the lower-cased token, or nothing when no task does |
| Todos.ResolveToken | src/components/TodoWidget.tsx:48-58 | An in-range ordinal k names task k-1; otherwise the target is the first task mentioning the token, and there is none exactly when no task mentions it |
| Todos.ResolveOrdinal | src/components/TodoWidget.tsx:48-50 | A decimal ordinal 1..length, with optional leading whitespace and trailing non-digits, names that task |
| Todos.DeleteByOrdinal | src/components/TodoWidget.tsx:46-52 | For an authorized user and a token read as an in-range n, delete removes the n-th task, keeps the rest in order and reports success |
| Todos.DeleteResolved | src/components/TodoWidget.tsx:46-60 | Whichever way the token resolves, an authorized delete removes exactly that task |
| Todos.ToggleByOrdinal | src/components/TodoWidget.tsx:67-73 | For an authorized user and a token read as an in-range n, toggle flips the n-th task and leaves every other task as it was |
| Todos.ToggleResolved | src/components/TodoWidget.tsx:67-82 | Whichever way the token resolves, an authorized toggle flips exactly that task |
| Todos.UnresolvedToken | src/components/TodoWidget.tsx:46-88 | A token that is neither an in-range ordinal nor mentioned by any task leaves the widget unchanged and reports "not found", for delete and toggle alike |
| Todos.OnAddTodo | src/components/TodoWidget.tsx:40-45 | Unauthorized: nothing changes; authorized: one open task with the text is appended and visibility is kept |
| Todos.OnDeleteTodo | src/components/TodoWidget.tsx:46-66 | Unauthorized: nothing changes; "not found" exactly when an authorized token resolves to no task, and then nothing changes; on success exactly one task is removed |
| Todos.OnToggleTodo | src/components/TodoWidget.tsx:67-88 | Unauthorized: nothing changes; the length and visibility never change; "not found" exactly when an authorized token resolves to no task; on success exactly one task is toggled |
| Todos.OnClearTodos | src/components/TodoWidget.tsx:89-94 | Unauthorized: nothing changes; authorized: the list becomes empty whatever text followed the command |
| Todos.OnToggleWidget | src/components/TodoWidget.tsx:95-100 | Unauthorized: nothing changes; authorized: visibility flips and the tasks are kept |
| Todos.Apply | src/components/TodoWidget.tsx:40-100 | Every callback is a no-op for a user the widget's gate rejects; for an admitted user, add appends one open task with the text, delete and toggle remove or flip the task the token resolves to or report "not found" and change nothing, clear empties the list, and show/hide flips visibility and keeps the tasks |
| Todos.AuthorizedIgnoringCase | src/components/TodoWidget.tsx:103-106 | The widget admits exactly the owner and the listed names, compared ignoring case on both sides; lower-casing the name, the owner or the list changes nothing |
| Pipeline.Step | src/hooks/useTwitchCommands.ts:47-61 | A `PING` frame sends back the pong and changes nothing; other frames send nothing; the list changes only for a parsed `!todo` message from a user both gates admit |
| Pipeline.EffectiveAuthorization | src/components/TodoWidget.tsx:103-106 | Both gates together admit the owner and otherwise only a user listed case-insensitively who is also a Twitch moderator or listed verbatim in lower case |
| Pipeline.TwitchModeratorAloneChangesNothing | src/components/TodoWidget.tsx:41 | A Twitch moderator who is neither owner nor configured changes nothing |
| Pipeline.ToggleWidgetTwice | src/components/TodoWidget.tsx:95-100 | The same show/hide frame applied twice restores the widget |
| Pipeline.AddAppends | src/components/TodoWidget.tsx:40-45 | A frame that fires add for a user the widget admits appends one open task with the command's text, sends nothing and reports success |
| Pipeline.ClearEmpties | src/components/TodoWidget.tsx:89-94 | An authorized clear empties the list, whatever its argument |
| App.AddModerator | src/App.tsx:16-21 | A blank input or an exact duplicate of the trimmed input leaves the settings unchanged, input included; otherwise the trimmed name is appended at the end and the input is cleared; a duplicate-free list stays duplicate-free |
| App.RemoveModerator | src/App.tsx:23-25 | The result holds exactly the entries different from the name; removing an absent name is the identity |
| App.RemoveConcat | src/App.tsx:24 | Removal works entry by entry, so the survivors keep their order |
| App.RemoveTwice | src/App.tsx:24 | Removing the same name twice is the same as removing it once |
| App.AddThenRemove | src/App.tsx:16-25 | Adding a new name and then removing it restores the original list |
| Text.IndexOf | src/hooks/useTwitchCommands.ts:49-55 | The first position at or after `from` where `sub` starts, and nothing exactly when there is none; `includes` is this search from position 0 |
| Text.Lower | src/hooks/useTwitchCommands.ts:133-139 | `toLowerCase` keeps the length and maps each character on its own: an upper-case ASCII letter to its lower-case form, every other character to itself |
| Text.Trim | src/App.tsx:17 | The result is a contiguous piece of the input with only whitespace cut off both ends; it starts and ends with a non-space; it is empty exactly when the input is blank |
| Text.TrimIdempotent | src/App.tsx:17 | Trimming twice is the same as trimming once |
| Scenarios.AliceParses | src/hooks/useTwitchCommands.ts:94-119 | A concrete line from `Alice` with `mod=1` in channel `seailo` parses to Alice, Twitch moderator, not the broadcaster, with the body `!todo add buy milk` |
| Scenarios.AliceFiresAdd | src/hooks/useTwitchCommands.ts:143-146 | That line fires the add callback with `buy milk` whatever the configured list |
| Scenarios.AliceAloneChangesNothing | src/components/TodoWidget.tsx:41 | With no configured moderators the widget's gate rejects Alice and the list is unchanged |
| Scenarios.AliceConfiguredAdds | src/components/TodoWidget.tsx:40-45 | With `alice` configured, the same line appends one open task `buy milk` |
| Scenarios.EmptyNameReplyReadAsOwner | src/hooks/useTwitchCommands.ts:104-112 | A reply to the owner from a sender with an empty `display-name` is read as the owner, since the lookup takes the value of `reply-parent-display-name` |
| Scenarios.EmptyNameReplyClears | src/hooks/useTwitchCommands.ts:104-133 | That reply passes both gates and `!todo clear` empties the list, whatever moderators are configured |
| Scenarios.PingAnswered | src/hooks/useTwitchCommands.ts:49-52 | The keep-alive probe is answered with the fixed reply and changes nothing |
| Scenarios.UnknownKeyword | src/hooks/useTwitchCommands.ts:178-179 | An unknown keyword fires nothing, even for the owner |
| Scenarios.StrangerIgnored | src/hooks/useTwitchCommands.ts:133-134 | A sender who is neither owner, Twitch moderator nor listed fires nothing |
| Scenarios.CapitalisedEntryNeedsTwitchModerator | src/hooks/useTwitchCommands.ts:133 | An entry `Bob` satisfies the widget's gate for `Bob`, but the hook still fires nothing for that user unless they are a Twitch moderator |

## Left out

- The WebSocket transport and its lifecycle are not modelled, because they are I/O and timing:
  - opening the socket;
  - the `onclose` reconnect after five seconds;
  - `onerror`;
  - closing the socket in cleanup.
- The StreamElements fallback is not modelled. It is a hypothetical event listener with its own message shape.
- `Math.random()` is not modelled: the handshake takes the roll as a parameter below 100000.
- Task ids and creation times (`Date.now()`) are dropped from `Todo`.
- Notification texts and their three-second timeout are not modelled. A handler's notification is reduced to its kind: none, success, or not found.
- React state, effects and re-renders are not modelled. The handlers read `todos` and `widgetVisible` from a closure; they are modelled as running sequentially on the current state.
- Local-storage persistence, all rendering, the colours and the settings toggle are not modelled.
- Case folding and whitespace are ASCII only. JavaScript's `toLowerCase`, `trim` and `\s` also cover Unicode letters and spaces.
- `parseInt` does not model the `0x` prefix or numbers beyond double precision.
- The regular expression is modelled by its structure, not by a backtracking engine.
- Chat.MatchLine: its own contract states only the shape every match has (an `@`, a marker, a non-empty tag block and a body, both on one line); where the tag block ends, which marker is taken, and which `@` starts the match are stated by Chat.MatchAtTags, Chat.LastMarker and Chat.MatchFrom, where the body stops by the contract of Chat.LineEnd, and the exact captures for laid-out lines by ChatLines.ParseFormatted.
- Numbers.ParseInt: its own contract says only when the result is NaN and when it can be negative; the value it reads is stated by Numbers.ParseDecimal for decimal renderings, not for every digit string.

=== FILE: app.dfy ===
/**
 * The settings panel's moderator list: adding the trimmed input when it is
 * non-blank and not already listed (exact, case-sensitive comparison), and
 * removing every entry equal to a name.
 */
module App {

  import opened Text

  /** The settings the panel owns and passes down to the widget. */
  datatype Settings = Settings(channelName: string, moderators: seq<string>, moderatorInput: string)

  predicate NoDuplicates(xs: seq<string>)
  {
    forall i, j :: 0 <= i < j < |xs| ==> xs[i] != xs[j]
  }

  /** `handleAddModerator`. */
  function AddModerator(s: Settings): (r: Settings)
    ensures r.channelName == s.channelName
    ensures IsBlank(s.moderatorInput) ==> r == s
    ensures Trim(s.moderatorInput) in s.moderators ==> r == s
    ensures !IsBlank(s.moderatorInput) && Trim(s.moderatorInput) !in s.moderators ==>
      r.moderators == s.moderators + [Trim(s.moderatorInput)] && r.moderatorInput == []
    ensures NoDuplicates(s.moderators) ==> NoDuplicates(r.moderators)
  {
    var name := Trim(s.moderatorInput);
    if name != [] && name !in s.moderators then
      Settings(s.channelName, s.moderators + [name], [])
    else s
  }

  /** `handleRemoveModerator`: `moderators.filter(mod => mod !== name)`. */
  function RemoveModerator(moderators: seq<string>, name: string): (r: seq<string>)
    ensures name !in r
    ensures forall x :: x in r <==> x in moderators && x != name
    ensures name !in moderators ==> r == moderators
    ensures |r| <= |moderators|
    decreases |moderators|
  {
    if |moderators| == 0 then []
    else if moderators[0] == name then RemoveModerator(moderators[1..], name)
    else [moderators[0]] + RemoveModerator(moderators[1..], name)
  }

  /** Removal works entry by entry, so it keeps the survivors in their order. */
  lemma {:induction false} RemoveConcat(a: seq<string>, b: seq<string>, name: string)
    ensures RemoveModerator(a + b, name) == RemoveModerator(a, name) + RemoveModerator(b, name)
    decreases |a|
  {
    if |a| > 0 {
      assert (a + b)[1..] == a[1..] + b;
      RemoveConcat(a[1..], b, name);
    } else {
      assert a + b == b;
    }
  }

  lemma RemoveTwice(moderators: seq<string>, name: string)
    ensures RemoveModerator(RemoveModerator(moderators, name), name) == RemoveModerator(moderators, name)
  {
  }

  /** Adding a new name and then removing it restores the list. */
  lemma AddThenRemove(s: Settings)
    requires !IsBlank(s.moderatorInput) && Trim(s.moderatorInput) !in s.moderators
    ensures RemoveModerator(AddModerator(s).moderators, Trim(s.moderatorInput)) == s.moderators
  {
    var name := Trim(s.moderatorInput);
    RemoveConcat(s.moderators, [name], name);
  }
}

=== FILE: chat.dfy ===
/**
 * Parsing one IRCv3-tagged Twitch chat frame (the tagged form of the message
 * syntax of section 2.3.1 of RFC 2812) into a chat message.
 *
 * The source matches the frame against one regular expression,
 *   `@` tag-block `(?=\s:)` anything `PRIVMSG #` word-chars ` :` body
 * with a lazy tag block, a greedy gap and a greedy body. Its structure is
 * stated here directly:
 *  - a match starts at the leftmost `@` from which the rest can match;
 *  - the tag block is at least one character and ends at the first whitespace
 *    that is followed by `:`; it never crosses a line terminator;
 *  - the gap never crosses a line terminator and, being greedy, reaches the
 *    LAST `PRIVMSG #<word-chars> :` marker of that line;
 *  - the body runs from the marker to the end of its line.
 * Only the smallest tag block needs to be tried: a longer one leaves fewer
 * places for the marker on the same line.
 */
module Chat {

  import opened Wrappers
  import opened Text

  datatype ChatMessage = ChatMessage(username: string, message: string, isMod: bool, isBroadcaster: bool)

  /** The two capture groups of the regular expression. */
  datatype RawMatch = RawMatch(tags: string, body: string)

  const Marker: string := "PRIVMSG #"
  const AnonymousName: string := "Anonymous"

  /** Whitespace followed by `:` at `k`: where the lazy tag block may stop. */
  predicate TagStop(s: string, k: nat)
  {
    k + 1 < |s| && IsSpace(s[k]) && s[k + 1] == ':'
  }

  predicate NoLineTerminator(s: string)
  {
    forall k :: 0 <= k < |s| ==> !IsLineTerminator(s[k])
  }

  /** The end of the line that position `i` lies on. */
  function LineEnd(s: string, i: nat): (e: nat)
    requires i <= |s|
    ensures i <= e <= |s|
    ensures e == |s| || IsLineTerminator(s[e])
    ensures forall k :: i <= k < e ==> !IsLineTerminator(s[k])
    decreases |s| - i
  {
    if i == |s| || IsLineTerminator(s[i]) then i else LineEnd(s, i + 1)
  }

  /** Where the lazy tag block that is still open at `q` closes. */
  function TagEnd(s: string, q: nat): (r: Option<nat>)
    requires q <= |s|
    ensures r.Some? ==> q <= r.value && TagStop(s, r.value)
    ensures r.Some? ==> forall k :: q <= k < r.value ==> !TagStop(s, k) && !IsLineTerminator(s[k])
    ensures r.None? ==> forall k :: q <= k <= LineEnd(s, q) ==> !TagStop(s, k)
    decreases |s| - q
  {
    if TagStop(s, q) then Some(q)
    else if q < |s| && !IsLineTerminator(s[q]) then TagEnd(s, q + 1)
    else None
  }

  /** Length of the longest run of word characters starting at `i`. */
  function WordRun(s: string, i: nat): (n: nat)
    requires i <= |s|
    ensures i + n <= |s|
    ensures forall k :: i <= k < i + n ==> IsWordChar(s[k])
    ensures i + n == |s| || !IsWordChar(s[i + n])
    decreases |s| - i
  {
    if i < |s| && IsWordChar(s[i]) then 1 + WordRun(s, i + 1) else 0
  }

  /**
   * The length of the `PRIVMSG #<word-chars> :` marker at the start of `t`.
   * `\w+` is followed by a space, which is not a word character, so only the
   * longest run of word characters can be the channel.
   */
  function MarkerLen(t: string): (r: Option<nat>)
    ensures r.Some? ==> |Marker| + 2 < r.value <= |t|
  {
    if StartsWith(t, Marker) then
      var j := |Marker| + WordRun(t, |Marker|);
      if j > |Marker| && j + 1 < |t| && t[j] == ' ' && t[j + 1] == ':' then Some(j + 2) else None
    else None
  }

  /** A marker is `PRIVMSG #`, at least one word character, a space and `:`. */
  lemma MarkerLenShape(t: string)
    ensures var r := MarkerLen(t);
      && (r.Some? ==> StartsWith(t, Marker) && t[r.value - 2] == ' ' && t[r.value - 1] == ':')
      && (r.Some? ==> forall k :: |Marker| <= k < r.value - 2 ==> IsWordChar(t[k]))
      && (!StartsWith(t, Marker) ==> r.None?)
  {
  }

  /** The last marker that starts in positions `q..k`. */
  function LastMarker(s: string, q: nat, k: nat): (r: Option<nat>)
    requires q <= k <= |s|
    ensures r.Some? ==> q <= r.value <= k && MarkerLen(s[r.value..]).Some?
    ensures r.Some? ==> forall j :: r.value < j <= k ==> MarkerLen(s[j..]).None?
    ensures r.None? ==> forall j :: q <= j <= k ==> MarkerLen(s[j..]).None?
    decreases k - q
  {
    if MarkerLen(s[k..]).Some? then Some(k)
    else if k == q then None
    else LastMarker(s, q, k - 1)
  }

  /** The match, if any, that starts at position `p`. */
  function MatchAt(s: string, p: nat): Option<RawMatch>
    requires p < |s|
  {
    if s[p] == '@' && p + 1 < |s| && !IsLineTerminator(s[p + 1]) then
      var stop := TagEnd(s, p + 2);
      if stop.None? then None
      else
        var q := stop.value;
        var marker := LastMarker(s, q, LineEnd(s, q));
        if marker.None? then None
        else
          var k := marker.value;
          var m := k + MarkerLen(s[k..]).value;
          Some(RawMatch(s[p + 1..q], s[m..LineEnd(s, m)]))
    else None
  }

  /** What any match guarantees: an `@`, a non-empty one-line tag block, a marker, a one-line body. */
  lemma MatchAtShape(s: string, p: nat)
    requires p < |s| && MatchAt(s, p).Some?
    ensures s[p] == '@' && 0 < |MatchAt(s, p).value.tags|
    ensures NoLineTerminator(MatchAt(s, p).value.tags) && NoLineTerminator(MatchAt(s, p).value.body)
    ensures Contains(s, Marker)
  {
    MatchAtMarker(s, p);
    MatchAtTags(s, p);
    MatchAtBody(s, p);
  }

  lemma MatchAtBody(s: string, p: nat)
    requires p < |s| && MatchAt(s, p).Some?
    ensures NoLineTerminator(MatchAt(s, p).value.body)
  {
    var q := TagEnd(s, p + 2).value;
    var k := LastMarker(s, q, LineEnd(s, q)).value;
    var m := k + MarkerLen(s[k..]).value;
    assert MatchAt(s, p).value.body == s[m..LineEnd(s, m)];
    RestOfLine(s, m);
  }

  lemma RestOfLine(s: string, m: nat)
    requires m <= |s|
    ensures NoLineTerminator(s[m..LineEnd(s, m)])
  {
    var body := s[m..LineEnd(s, m)];
    forall j | 0 <= j < |body|
      ensures !IsLineTerminator(body[j])
    {
      assert body[j] == s[m + j];
    }
  }

  /** The tag block runs from after the `@` to the first whitespace followed by `:`. */
  lemma MatchAtTags(s: string, p: nat)
    requires p < |s| && MatchAt(s, p).Some?
    ensures var q := TagEnd(s, p + 2);
      && q.Some? && MatchAt(s, p).value.tags == s[p + 1..q.value]
      && s[p] == '@' && p + 1 < q.value && TagStop(s, q.value)
      && NoLineTerminator(s[p + 1..q.value])
  {
    TagBlockOnOneLine(s, p, TagEnd(s, p + 2).value);
  }

  lemma MatchAtMarker(s: string, p: nat)
    requires p < |s| && MatchAt(s, p).Some?
    ensures Contains(s, Marker)
  {
    var q := TagEnd(s, p + 2).value;
    var k := LastMarker(s, q, LineEnd(s, q)).value;
    MarkerLenShape(s[k..]);
    ContainsAt(s, Marker, k);
  }

  lemma TagBlockOnOneLine(s: string, p: nat, q: nat)
    requires p + 1 < |s| && !IsLineTerminator(s[p + 1])
    requires TagEnd(s, p + 2) == Some(q)
    ensures NoLineTerminator(s[p + 1..q])
  {
    var tags := s[p + 1..q];
    forall j | 0 <= j < |tags|
      ensures !IsLineTerminator(tags[j])
    {
      assert tags[j] == s[p + 1 + j];
      if j > 0 {
        assert p + 2 <= p + 1 + j < q;
      }
    }
  }

  /** The leftmost match starting at or after `p`. */
  function MatchFrom(s: string, p: nat): (r: Option<RawMatch>)
    requires p <= |s|
    ensures r.Some? ==> exists i :: p <= i < |s| && MatchAt(s, i) == r && forall j :: p <= j < i ==> MatchAt(s, j).None?
    ensures r.None? ==> forall i :: p <= i < |s| ==> MatchAt(s, i).None?
    decreases |s| - p
  {
    if p == |s| then None
    else if MatchAt(s, p).Some? then MatchAt(s, p)
    else MatchFrom(s, p + 1)
  }

  /** Both capture groups of `rawMessage.match(...)`, or `None` for `null`. */
  function MatchLine(s: string): (r: Option<RawMatch>)
    ensures r.Some? ==> '@' in s && Contains(s, Marker)
    ensures r.Some? ==> 0 < |r.value.tags|
    ensures r.Some? ==> NoLineTerminator(r.value.tags) && NoLineTerminator(r.value.body)
  {
    MatchedLineShape(s);
    MatchFrom(s, 0)
  }

  lemma MatchedLineShape(s: string)
    ensures var r := MatchFrom(s, 0);
      r.Some? ==> ('@' in s && Contains(s, Marker) && 0 < |r.value.tags|
                   && NoLineTerminator(r.value.tags) && NoLineTerminator(r.value.body))
  {
    var r := MatchFrom(s, 0);
    if r.Some? {
      var i :| 0 <= i < |s| && MatchAt(s, i) == r;
      MatchAtShape(s, i);
    }
  }

  /** Length of the longest run of characters other than `;` starting at `i`. */
  function ValueRun(t: string, i: nat): (n: nat)
    requires i <= |t|
    ensures i + n <= |t|
    ensures forall k :: i <= k < i + n ==> t[k] != ';'
    ensures i + n == |t| || t[i + n] == ';'
    decreases |t| - i
  {
    if i < |t| && t[i] != ';' then 1 + ValueRun(t, i + 1) else 0
  }

  /** `key=` followed by the value `v` at position `i`, the value running up to `;` or the end. */
  predicate ValueAt(tags: string, key: string, i: nat, v: string)
  {
    var start := i + |key| + 1;
    && i <= |tags|
    && StartsWith(tags[i..], key + "=")
    && start + |v| <= |tags|
    && tags[start..start + |v|] == v
    && (start + |v| == |tags| || tags[start + |v|] == ';')
  }

  /** `key=` at position `i` followed by at least one character other than `;`. */
  predicate ValueStartsAt(tags: string, key: string, i: nat)
  {
    var start := i + |key| + 1;
    i <= |tags| && StartsWith(tags[i..], key + "=") && start < |tags| && tags[start] != ';'
  }

  /** The first non-empty `key=` value at or after position `i`: `tags.match(/key=([^;]+)/)`. */
  function TagValueFrom(tags: string, key: string, i: nat): (r: Option<string>)
    requires i <= |tags|
    ensures r.Some? ==> r.value != [] && ';' !in r.value
    ensures r.Some? ==> exists j :: (i <= j <= |tags| && ValueAt(tags, key, j, r.value)
                                     && forall k :: i <= k < j ==> !ValueStartsAt(tags, key, k))
    ensures r.None? ==> forall k :: i <= k <= |tags| ==> !ValueStartsAt(tags, key, k)
    decreases |tags| - i
  {
    var start := i + |key| + 1;
    if ValueStartsAt(tags, key, i) then
      var v := tags[start..start + ValueRun(tags, start)];
      assert ValueAt(tags, key, i, v);
      Some(v)
    else if i == |tags| then None
    else TagValueFrom(tags, key, i + 1)
  }

  function TagValue(tags: string, key: string): (r: Option<string>)
    ensures r.Some? ==> r.value != [] && ';' !in r.value
  {
    TagValueFrom(tags, key, 0)
  }

  /** `parseTwitchMessage`: `None` stands for its `null`. */
  function ParseTwitchMessage(raw: string, channelName: string): (r: Option<ChatMessage>)
    ensures r.None? <==> MatchLine(raw).None?
    ensures r.Some? ==> r.value.message == MatchLine(raw).value.body
    ensures r.Some? ==> r.value.username != []
    ensures r.Some? ==> var name := TagValue(MatchLine(raw).value.tags, "display-name");
      r.value.username == (if name.Some? then name.value else AnonymousName)
    ensures r.Some? ==> (r.value.isMod <==> TagValue(MatchLine(raw).value.tags, "mod") == Some("1"))
    ensures r.Some? ==> (r.value.isBroadcaster <==> EqualsIgnoreCase(r.value.username, channelName))
  {
    match MatchLine(raw)
    case None => None
    case Some(m) =>
      var username := match TagValue(m.tags, "display-name") case Some(n) => n case None => AnonymousName;
      var isMod := TagValue(m.tags, "mod") == Some("1");
      Some(ChatMessage(username, m.body, isMod, EqualsIgnoreCase(username, channelName)))
  }
}

=== FILE: chat_lines.dfy ===
/**
 * The shape of the lines Twitch actually sends,
 *   `@<tags> :<nick>!<user>@<host> PRIVMSG #<channel> :<body>`,
 * and the proof that the parser recovers their tag block and body.
 */
module ChatLines {

  import opened Wrappers
  import opened Text
  import opened Chat

  function FormatLine(tags: string, prefix: string, channel: string, body: string): string
  {
    "@" + tags + " :" + prefix + " " + Marker + channel + " :" + body
  }

  /** Tag values escape their spaces, so a tag block holds no whitespace. */
  predicate WellFormedTags(tags: string)
  {
    |tags| > 0 && forall i :: 0 <= i < |tags| ==> !IsSpace(tags[i]) && !IsLineTerminator(tags[i])
  }

  predicate IsChannelChar(c: char)
  {
    ('a' <= c <= 'z') || IsDigit(c) || c == '_'
  }

  /** Channel names as they appear on the wire: lower-case word characters. */
  predicate IsChannelName(channel: string)
  {
    |channel| > 0 && forall i :: 0 <= i < |channel| ==> IsChannelChar(channel[i])
  }

  predicate NoMarker(body: string)
  {
    forall j :: 0 <= j <= |body| ==> !StartsWith(body[j..], Marker)
  }

  lemma {:induction false} TagEndReaches(s: string, q: nat, e: nat)
    requires q <= e && TagStop(s, e)
    requires forall k :: q <= k < e ==> !TagStop(s, k) && !IsLineTerminator(s[k])
    ensures TagEnd(s, q) == Some(e)
    decreases e - q
  {
    if q < e {
      TagEndReaches(s, q + 1, e);
    }
  }

  lemma {:induction false} LineEndAt(s: string, i: nat, e: nat)
    requires i <= e <= |s|
    requires forall k :: i <= k < e ==> !IsLineTerminator(s[k])
    requires e == |s| || IsLineTerminator(s[e])
    ensures LineEnd(s, i) == e
    decreases e - i
  {
    if i < e {
      LineEndAt(s, i + 1, e);
    }
  }

  lemma {:induction false} LastMarkerFinds(s: string, q: nat, k0: nat, k: nat)
    requires q <= k0 <= k <= |s|
    requires MarkerLen(s[k0..]).Some?
    requires forall j :: k0 < j <= k ==> MarkerLen(s[j..]).None?
    ensures LastMarker(s, q, k) == Some(k0)
    decreases k - q
  {
    if k > k0 {
      LastMarkerFinds(s, q, k0, k - 1);
    }
  }

  lemma {:induction false} WordRunExact(t: string, i: nat, n: nat)
    requires i + n <= |t|
    requires forall k :: i <= k < i + n ==> IsWordChar(t[k])
    requires i + n == |t| || !IsWordChar(t[i + n])
    ensures WordRun(t, i) == n
    decreases n
  {
    if n > 0 {
      WordRunExact(t, i + 1, n - 1);
    }
  }

  lemma MarkerLenOf(channel: string, rest: string)
    requires IsChannelName(channel)
    ensures MarkerLen(Marker + channel + " :" + rest) == Some(|Marker| + |channel| + 2)
  {
    var t := Marker + channel + " :" + rest;
    assert t[..|Marker|] == Marker;
    WordRunExact(t, |Marker|, |channel|);
  }

  lemma {:induction false} ValueRunExact(t: string, i: nat, n: nat)
    requires i + n <= |t|
    requires forall k :: i <= k < i + n ==> t[k] != ';'
    requires i + n == |t| || t[i + n] == ';'
    ensures ValueRun(t, i) == n
    decreases n
  {
    if n > 0 {
      ValueRunExact(t, i + 1, n - 1);
    }
  }

  lemma {:induction false} TagValueFromFound(tags: string, key: string, i: nat, j: nat, v: string)
    requires i <= j <= |tags|
    requires ValueAt(tags, key, j, v) && v != [] && ';' !in v
    requires forall k :: i <= k < j ==> !ValueStartsAt(tags, key, k)
    ensures TagValueFrom(tags, key, i) == Some(v)
    decreases j - i
  {
    if i < j {
      TagValueFromFound(tags, key, i + 1, j, v);
    } else {
      ValueRunOfValue(tags, key, j, v);
    }
  }

  lemma ValueRunOfValue(tags: string, key: string, j: nat, v: string)
    requires ValueAt(tags, key, j, v) && v != [] && ';' !in v
    ensures ValueStartsAt(tags, key, j)
    ensures ValueRun(tags, j + |key| + 1) == |v|
  {
    var start := j + |key| + 1;
    assert tags[start] == v[0];
    forall k | start <= k < start + |v|
      ensures tags[k] != ';'
    {
      assert tags[k] == v[k - start];
    }
    ValueRunExact(tags, start, |v|);
  }

  /**
   * The tag lookup finds the value after the first `key=` that is followed by
   * a value, the value running up to the next `;` or the end of the block.
   */
  lemma TagValueFound(tags: string, key: string, j: nat, v: string)
    requires j <= |tags|
    requires ValueAt(tags, key, j, v) && v != [] && ';' !in v
    requires forall k :: 0 <= k < j ==> !ValueStartsAt(tags, key, k)
    ensures TagValue(tags, key) == Some(v)
  {
    TagValueFromFound(tags, key, 0, j, v);
  }

  /** A `key=v` pair written into a tag list, ended by `;` or by the end of the list. */
  lemma ValueAtParts(pre: string, key: string, v: string, post: string)
    requires post == [] || post[0] == ';'
    ensures ValueAt(pre + key + "=" + v + post, key, |pre|, v)
  {
    var tags := pre + key + "=" + v + post;
    assert tags[|pre|..][..|key| + 1] == key + "=";
    var start := |pre| + |key| + 1;
    assert tags[start..start + |v|] == v;
    if post != [] {
      assert tags[start + |v|] == post[0];
    }
  }

  /** A body without the letter `P` cannot hold a marker. */
  lemma NoMarkerWithoutLetterP(body: string)
    requires 'P' !in body
    ensures NoMarker(body)
  {
    forall j | 0 <= j <= |body|
      ensures !StartsWith(body[j..], Marker)
    {
      if j < |body| {
        assert body[j..][0] == body[j] != 'P';
      }
    }
  }

  /** A line without `P` at position `j` has no marker there. */
  lemma NoMarkerWithoutP(s: string, j: nat)
    requires j < |s| && s[j] != 'P'
    ensures MarkerLen(s[j..]).None?
  {
  }

  /** Where each component of a formatted line sits. */
  lemma Layout(tags: string, prefix: string, channel: string, body: string)
    ensures var s := FormatLine(tags, prefix, channel, body);
      var q := 1 + |tags|;
      var k0 := q + 3 + |prefix|;
      var b := k0 + |Marker| + |channel| + 2;
      && |s| == b + |body|
      && s[0] == '@'
      && s[1..q] == tags
      && s[q] == ' ' && s[q + 1] == ':'
      && s[q + 2..k0 - 1] == prefix
      && s[k0 - 1] == ' '
      && s[k0..k0 + |Marker|] == Marker
      && s[k0..] == Marker + channel + " :" + body
      && s[k0 + |Marker|..b - 2] == channel
      && s[b - 2] == ' ' && s[b - 1] == ':'
      && s[b..] == body
  {
  }

  /** What may follow a line in a frame: nothing, or a line terminator and whatever comes after it. */
  predicate EndsLine(tail: string)
  {
    tail == [] || IsLineTerminator(tail[0])
  }

  /** No marker starts inside a marker-free body, even when the body is followed by the end of its line. */
  lemma NoMarkerBeforeLineEnd(body: string, i: nat, tail: string)
    requires i <= |body| && NoMarker(body) && EndsLine(tail)
    ensures !StartsWith(body[i..] + tail, Marker)
  {
    var u := body[i..] + tail;
    if |Marker| <= |body| - i {
      assert u[..|Marker|] == body[i..][..|Marker|];
    } else if tail != [] && |Marker| <= |u| {
      assert u[..|Marker|][|body| - i] == tail[0];
    }
  }

  lemma FormattedTagEnd(tags: string, prefix: string, channel: string, body: string, tail: string)
    requires WellFormedTags(tags)
    ensures TagEnd(FormatLine(tags, prefix, channel, body) + tail, 2) == Some(1 + |tags|)
  {
    var line := FormatLine(tags, prefix, channel, body);
    var s := line + tail;
    var q := 1 + |tags|;
    Layout(tags, prefix, channel, body);
    assert s[q] == line[q] && s[q + 1] == line[q + 1];
    forall k | 2 <= k < q
      ensures !TagStop(s, k) && !IsLineTerminator(s[k])
    {
      assert s[k] == line[k] == line[1..q][k - 1] == tags[k - 1];
    }
    TagEndReaches(s, 2, q);
  }

  /** Past the tag block, no character of a formatted line ends the line. */
  lemma FormattedNoTerminator(tags: string, prefix: string, channel: string, body: string)
    requires NoLineTerminator(prefix)
    requires IsChannelName(channel)
    requires NoLineTerminator(body)
    ensures var line := FormatLine(tags, prefix, channel, body);
      forall k :: 1 + |tags| <= k < |line| ==> !IsLineTerminator(line[k])
  {
    var line := FormatLine(tags, prefix, channel, body);
    var q := 1 + |tags|;
    var k0 := q + 3 + |prefix|;
    var b := k0 + |Marker| + |channel| + 2;
    Layout(tags, prefix, channel, body);
    forall k | q <= k < |line|
      ensures !IsLineTerminator(line[k])
    {
      if q + 2 <= k < k0 - 1 {
        assert line[k] == line[q + 2..k0 - 1][k - q - 2] == prefix[k - q - 2];
      } else if k0 <= k < k0 + |Marker| {
        assert line[k] == line[k0..k0 + |Marker|][k - k0] == Marker[k - k0];
      } else if k0 + |Marker| <= k < b - 2 {
        assert line[k] == line[k0 + |Marker|..b - 2][k - k0 - |Marker|] == channel[k - k0 - |Marker|];
      } else if b <= k {
        assert line[k] == line[b..][k - b] == body[k - b];
      }
    }
  }

  lemma FormattedOneLine(tags: string, prefix: string, channel: string, body: string, tail: string)
    requires NoLineTerminator(prefix)
    requires IsChannelName(channel)
    requires NoLineTerminator(body)
    requires EndsLine(tail)
    ensures var line := FormatLine(tags, prefix, channel, body);
      var b := 4 + |tags| + |prefix| + |Marker| + |channel| + 2;
      LineEnd(line + tail, 1 + |tags|) == |line| && LineEnd(line + tail, b) == |line|
  {
    var line := FormatLine(tags, prefix, channel, body);
    var s := line + tail;
    var q := 1 + |tags|;
    var b := q + 3 + |prefix| + |Marker| + |channel| + 2;
    Layout(tags, prefix, channel, body);
    FormattedNoTerminator(tags, prefix, channel, body);
    forall k | q <= k < |line|
      ensures !IsLineTerminator(s[k])
    {
      assert s[k] == line[k];
    }
    if tail != [] {
      assert s[|line|] == tail[0];
    }
    LineEndAt(s, q, |line|);
    LineEndAt(s, b, |line|);
  }

  lemma FormattedMarker(tags: string, prefix: string, channel: string, body: string, tail: string)
    requires IsChannelName(channel)
    ensures var s := FormatLine(tags, prefix, channel, body) + tail;
      var k0 := 4 + |tags| + |prefix|;
      k0 <= |s| && MarkerLen(s[k0..]) == Some(|Marker| + |channel| + 2)
  {
    var line := FormatLine(tags, prefix, channel, body);
    var k0 := 4 + |tags| + |prefix|;
    Layout(tags, prefix, channel, body);
    assert (line + tail)[k0..] == Marker + channel + " :" + (body + tail);
    MarkerLenOf(channel, body + tail);
  }

  lemma FormattedLastMarker(tags: string, prefix: string, channel: string, body: string, tail: string)
    requires IsChannelName(channel)
    requires NoMarker(body)
    requires EndsLine(tail)
    ensures var line := FormatLine(tags, prefix, channel, body);
      LastMarker(line + tail, 1 + |tags|, |line|) == Some(4 + |tags| + |prefix|)
  {
    var line := FormatLine(tags, prefix, channel, body);
    var s := line + tail;
    var q := 1 + |tags|;
    var k0 := q + 3 + |prefix|;
    var b := k0 + |Marker| + |channel| + 2;
    Layout(tags, prefix, channel, body);
    FormattedMarker(tags, prefix, channel, body, tail);
    forall j | k0 < j <= |line|
      ensures MarkerLen(s[j..]).None?
    {
      if j < b {
        if j < k0 + |Marker| {
          assert line[j] == line[k0..k0 + |Marker|][j - k0] == Marker[j - k0];
        } else if j < b - 2 {
          assert line[j] == line[k0 + |Marker|..b - 2][j - k0 - |Marker|] == channel[j - k0 - |Marker|];
        }
        assert s[j] == line[j];
        NoMarkerWithoutP(s, j);
      } else {
        assert s[j..] == body[j - b..] + tail;
        NoMarkerBeforeLineEnd(body, j - b, tail);
        MarkerLenShape(s[j..]);
      }
    }
    LastMarkerFinds(s, q, k0, |line|);
  }

  lemma MatchAtFromParts(s: string, q: nat, k0: nat, b: nat, e: nat)
    requires 2 <= q <= k0 <= b <= e <= |s| && s[0] == '@' && !IsLineTerminator(s[1])
    requires TagEnd(s, 2) == Some(q) && LineEnd(s, q) == e
    requires LastMarker(s, q, e) == Some(k0) && MarkerLen(s[k0..]) == Some(b - k0)
    requires LineEnd(s, b) == e
    ensures MatchFrom(s, 0) == Some(RawMatch(s[1..q], s[b..e]))
  {
    var stop := TagEnd(s, 2);
    assert stop.value == q;
    var marker := LastMarker(s, q, LineEnd(s, q));
    assert marker.value == k0;
    var m := k0 + MarkerLen(s[k0..]).value;
    assert m == b;
    assert MatchAt(s, 0) == Some(RawMatch(s[1..q], s[m..LineEnd(s, m)]));
    MatchFromFirst(s);
  }

  lemma MatchFromFirst(s: string)
    requires 0 < |s| && MatchAt(s, 0).Some?
    ensures MatchFrom(s, 0) == MatchAt(s, 0)
  {
  }

  /**
   * Parsing a well-formed line gives back its tag block and its body, whether the
   * frame ends with the line or goes on after a line terminator (`\r\n` and the
   * next lines of a batched frame).
   */
  lemma ParseFormatted(tags: string, prefix: string, channel: string, body: string, tail: string)
    requires WellFormedTags(tags)
    requires NoLineTerminator(prefix)
    requires IsChannelName(channel)
    requires NoLineTerminator(body) && NoMarker(body)
    requires EndsLine(tail)
    ensures MatchLine(FormatLine(tags, prefix, channel, body) + tail) == Some(RawMatch(tags, body))
  {
    var line := FormatLine(tags, prefix, channel, body);
    var s := line + tail;
    var q := 1 + |tags|;
    var k0 := q + 3 + |prefix|;
    var b := k0 + |Marker| + |channel| + 2;
    Layout(tags, prefix, channel, body);
    assert s[0] == '@' && s[1] == tags[0];
    assert s[1..q] == line[1..q] == tags;
    assert s[b..|line|] == line[b..] == body;
    FormattedTagEnd(tags, prefix, channel, body, tail);
    FormattedOneLine(tags, prefix, channel, body, tail);
    FormattedLastMarker(tags, prefix, channel, body, tail);
    FormattedMarker(tags, prefix, channel, body, tail);
    MatchAtFromParts(s, q, k0, b, |line|);
  }

  /** A frame of several lines: the first line's tags and body are what the parser reports. */
  lemma ParseBatched(tags: string, prefix: string, channel: string, body: string, rest: string)
    requires WellFormedTags(tags)
    requires NoLineTerminator(prefix)
    requires IsChannelName(channel)
    requires NoLineTerminator(body) && NoMarker(body)
    ensures MatchLine(FormatLine(tags, prefix, channel, body) + "\r\n" + rest) == Some(RawMatch(tags, body))
  {
    var tail := "\r\n" + rest;
    assert FormatLine(tags, prefix, channel, body) + "\r\n" + rest == FormatLine(tags, prefix, channel, body) + tail;
    ParseFormatted(tags, prefix, channel, body, tail);
  }
}

=== FILE: commands.dfy ===
/**
 * The chat side of the widget: what the connection sends when it opens, how an
 * inbound frame is routed, and how a parsed chat message becomes (at most) one
 * callback. `handleCommand` checks the `!todo` prefix, applies the first
 * authorization gate, splits the body on single spaces, lower-cases the second
 * word and maps its synonyms onto the five callbacks.
 */
module Commands {

  import opened Wrappers
  import opened Text
  import opened Words
  import opened Numbers
  import opened Chat

  const CommandPrefix: string := "!todo"
  const PongReply: string := "PONG :tmi.twitch.tv"
  const CapabilityRequest: string := "CAP REQ :twitch.tv/tags twitch.tv/commands twitch.tv/membership"
  const NickPrefix: string := "NICK justinfan"
  const JoinPrefix: string := "JOIN #"
  /** `Math.floor(Math.random() * 100000)` is below this bound. */
  const NickRange: nat := 100000

  /** The five callbacks the widget hands to the hook. */
  datatype Kind = Add | Delete | Toggle | Clear | ToggleWidget

  /** One callback invocation: which callback, the remaining text, the display name. */
  datatype Callback = Callback(kind: Kind, text: string, user: string)

  /** The keywords of each `case` group of the `switch`. */
  function Synonyms(k: Kind): set<string>
  {
    match k
    case Add => {"add"}
    case Delete => {"delete", "del", "remove", "rm"}
    case Toggle => {"done", "complete", "check", "toggle"}
    case Clear => {"clear", "reset"}
    case ToggleWidget => {"hide", "show", "toggle-widget"}
  }

  /** The `switch (subCommand)`. */
  function KindOf(keyword: string): (r: Option<Kind>)
    ensures forall k: Kind :: r == Some(k) <==> keyword in Synonyms(k)
    ensures r.None? <==> forall k: Kind :: keyword !in Synonyms(k)
  {
    if keyword == "add" then Some(Add)
    else if keyword == "delete" || keyword == "del" || keyword == "remove" || keyword == "rm" then Some(Delete)
    else if keyword == "done" || keyword == "complete" || keyword == "check" || keyword == "toggle" then Some(Toggle)
    else if keyword == "clear" || keyword == "reset" then Some(Clear)
    else if keyword == "hide" || keyword == "show" || keyword == "toggle-widget" then Some(ToggleWidget)
    else None
  }

  /** Add, delete and toggle fire only with a non-empty remainder; clear and hide fire regardless. */
  predicate NeedsText(k: Kind)
  {
    k == Add || k == Delete || k == Toggle
  }

  /**
   * The hook's own gate: broadcaster, Twitch moderator, or the lower-cased
   * display name listed verbatim in the configured moderators (the list
   * entries are not lower-cased here).
   */
  predicate HookAuthorized(msg: ChatMessage, moderators: seq<string>)
  {
    msg.isBroadcaster || msg.isMod || Lower(msg.username) in moderators
  }

  /**
   * The hook's gate ignores the case of the name but not of the list: an entry
   * admits its user only when it is stored in lower case, and a user it admits
   * that way is also on the widget's case-insensitive list.
   */
  lemma HookGate(msg: ChatMessage, moderators: seq<string>)
    ensures HookAuthorized(msg, moderators) <==>
      msg.isBroadcaster || msg.isMod
      || exists i :: 0 <= i < |moderators| && moderators[i] == Lower(msg.username)
    ensures HookAuthorized(msg, moderators) == HookAuthorized(msg.(username := Lower(msg.username)), moderators)
    ensures forall i :: 0 <= i < |moderators| && moderators[i] != Lower(moderators[i]) ==> moderators[i] != Lower(msg.username)
    ensures !msg.isBroadcaster && !msg.isMod && HookAuthorized(msg, moderators) ==> Lower(msg.username) in LowerAll(moderators)
  {
    LowerIdempotent(msg.username);
    if Lower(msg.username) in moderators {
      var i :| 0 <= i < |moderators| && moderators[i] == Lower(msg.username);
      assert LowerAll(moderators)[i] == Lower(msg.username);
    }
  }

  /** `handleCommand`: the callback it fires, if any. */
  function HandleCommand(msg: ChatMessage, moderators: seq<string>): (r: Option<Callback>)
    ensures r.Some? ==> StartsWith(msg.message, CommandPrefix) && HookAuthorized(msg, moderators)
    ensures r.Some? ==> r.value.user == msg.username
    ensures r.Some? ==> Lower(Keyword(msg.message)) in Synonyms(r.value.kind)
    ensures r.Some? ==> r.value.text == Argument(msg.message)
    ensures r.Some? && NeedsText(r.value.kind) ==> r.value.text != []
    ensures var kind := KindOf(Lower(Keyword(msg.message)));
      StartsWith(msg.message, CommandPrefix) && HookAuthorized(msg, moderators)
      && ' ' in msg.message && kind.Some?
      && !(NeedsText(kind.value) && Argument(msg.message) == [])
      ==> r == Some(Callback(kind.value, Argument(msg.message), msg.username))
  {
    if !StartsWith(msg.message, CommandPrefix) then None
    else if !HookAuthorized(msg, moderators) then None
    else
      WordsOfBody(msg.message);
      var parts := Split(msg.message, ' ');
      if |parts| < 2 then None
      else
        var kind := KindOf(Lower(parts[1]));
        var rest := Join(parts[2..], ' ');
        if kind.None? then None
        else if NeedsText(kind.value) && rest == [] then None
        else Some(Callback(kind.value, rest, msg.username))
  }

  /** The text between the first and the second space (or the end). */
  function Keyword(body: string): string
  {
    var first := IndexOf(body, " ", 0);
    if first.None? then []
    else
      var after := body[first.value + 1..];
      var second := IndexOf(after, " ", 0);
      if second.None? then after else after[..second.value]
  }

  /** The text after the second space, or nothing when there is no second space. */
  function Argument(body: string): string
  {
    var first := IndexOf(body, " ", 0);
    if first.None? then []
    else
      var after := body[first.value + 1..];
      var second := IndexOf(after, " ", 0);
      if second.None? then [] else after[second.value + 1..]
  }

  lemma FirstSpace(s: string)
    requires IndexOf(s, " ", 0).Some?
    ensures var i := IndexOf(s, " ", 0).value;
      i < |s| && s[i] == ' ' && ' ' !in s[..i]
  {
    var i := IndexOf(s, " ", 0).value;
    assert s[i..][..1] == " ";
    forall j | 0 <= j < i
      ensures s[j] != ' '
    {
      assert !StartsWith(s[j..], " ");
      assert s[j..][..1] == [s[j]];
    }
  }

  lemma NoSpace(s: string)
    requires IndexOf(s, " ", 0).None?
    ensures ' ' !in s
  {
    forall j | 0 <= j < |s|
      ensures s[j] != ' '
    {
      assert !StartsWith(s[j..], " ");
      assert s[j..][..1] == [s[j]];
    }
  }

  /**
   * `message.split(' ')` has a second word exactly when the body has a space;
   * that word is `Keyword`, and re-joining the words after it gives `Argument`.
   */
  lemma WordsOfBody(body: string)
    ensures |Split(body, ' ')| >= 2 <==> ' ' in body
    ensures |Split(body, ' ')| >= 2 ==> Split(body, ' ')[1] == Keyword(body)
    ensures |Split(body, ' ')| >= 2 ==> Join(Split(body, ' ')[2..], ' ') == Argument(body)
  {
    var first := IndexOf(body, " ", 0);
    if first.None? {
      NoSpace(body);
      SplitWithout(body, ' ');
    } else {
      var i := first.value;
      FirstSpace(body);
      SplitAtFirst(body, ' ', i);
      var after := body[i + 1..];
      var second := IndexOf(after, " ", 0);
      if second.None? {
        NoSpace(after);
        SplitWithout(after, ' ');
      } else {
        var j := second.value;
        FirstSpace(after);
        SplitAtFirst(after, ' ', j);
        JoinTail(after, ' ', j);
      }
    }
  }

  /** The body `!todo <word> <argument>`, with the argument possibly empty or spaced. */
  lemma WordsOfCommand(w: string, arg: string)
    requires ' ' !in w
    ensures var body := CommandPrefix + " " + w + " " + arg;
      |Split(body, ' ')| >= 2 && Split(body, ' ')[1] == w && Join(Split(body, ' ')[2..], ' ') == arg
  {
    var body := CommandPrefix + " " + w + " " + arg;
    assert body == CommandPrefix + [' '] + (w + [' '] + arg);
    SplitAfterPrefix(CommandPrefix, ' ', w + [' '] + arg);
    SplitAfterPrefix(w, ' ', arg);
    assert Split(body, ' ') == [CommandPrefix] + ([w] + Split(arg, ' '));
    assert Split(body, ' ')[2..] == Split(arg, ' ');
    JoinSplit(arg, ' ');
  }

  /**
   * For an authorized sender, `!todo <word> <argument>` fires the callback
   * whose synonym group holds the lower-cased word, with the argument as
   * text, unless that callback needs text and the argument is empty; an
   * unknown word fires nothing.
   */
  lemma CommandOfWords(msg: ChatMessage, moderators: seq<string>, w: string, arg: string)
    requires msg.message == CommandPrefix + " " + w + " " + arg && ' ' !in w
    requires HookAuthorized(msg, moderators)
    ensures forall k: Kind :: Lower(w) in Synonyms(k) ==>
      HandleCommand(msg, moderators) == (if NeedsText(k) && arg == [] then None else Some(Callback(k, arg, msg.username)))
    ensures (forall k: Kind :: Lower(w) !in Synonyms(k)) ==> HandleCommand(msg, moderators) == None
  {
    WordsOfCommand(w, arg);
    assert StartsWith(msg.message, CommandPrefix);
  }

  /** `!todo <word>` with nothing after the word fires only the callbacks that need no text. */
  lemma BareCommand(msg: ChatMessage, moderators: seq<string>, w: string)
    requires msg.message == CommandPrefix + " " + w && ' ' !in w
    requires HookAuthorized(msg, moderators)
    ensures forall k: Kind :: Lower(w) in Synonyms(k) ==>
      HandleCommand(msg, moderators) == (if NeedsText(k) then None else Some(Callback(k, [], msg.username)))
    ensures (forall k: Kind :: Lower(w) !in Synonyms(k)) ==> HandleCommand(msg, moderators) == None
  {
    var body := msg.message;
    assert body == CommandPrefix + [' '] + w;
    SplitAfterPrefix(CommandPrefix, ' ', w);
    SplitWithout(w, ' ');
    assert StartsWith(body, CommandPrefix);
  }

  /** No callback fires for a body that does not start with `!todo`, or for an unauthorized sender. */
  lemma Silent(msg: ChatMessage, moderators: seq<string>)
    requires !StartsWith(msg.message, CommandPrefix) || !HookAuthorized(msg, moderators)
    ensures HandleCommand(msg, moderators).None?
  {
  }

  /** What `ws.onmessage` does with one frame. */
  datatype Reaction = Reply(line: string) | Fire(callback: Callback) | Ignore

  /**
   * `ws.onmessage`: a frame mentioning `PING` anywhere is answered and never
   * parsed; otherwise a frame mentioning `PRIVMSG` is parsed and handled.
   */
  function OnMessage(frame: string, channelName: string, moderators: seq<string>): (r: Reaction)
    ensures Contains(frame, "PING") <==> r == Reply(PongReply)
    ensures r.Reply? ==> r.line == PongReply
    ensures !Contains(frame, "PING") && !Contains(frame, "PRIVMSG") ==> r == Ignore
    ensures r.Fire? ==> exists msg :: ParseTwitchMessage(frame, channelName) == Some(msg)
                                     && HandleCommand(msg, moderators) == Some(r.callback)
  {
    if Contains(frame, "PING") then Reply(PongReply)
    else if Contains(frame, "PRIVMSG") then
      match ParseTwitchMessage(frame, channelName)
      case None => Ignore
      case Some(msg) =>
        match HandleCommand(msg, moderators)
        case None => Ignore
        case Some(cb) => Fire(cb)
    else Ignore
  }

  /**
   * Every frame the parser accepts mentions `PRIVMSG`, so the routing filter
   * drops nothing parseable: a frame without `PING` fires a callback exactly
   * when it parses and `handleCommand` fires on it.
   */
  lemma RoutingComplete(frame: string, channelName: string, moderators: seq<string>)
    requires !Contains(frame, "PING")
    ensures OnMessage(frame, channelName, moderators).Fire? <==>
      (ParseTwitchMessage(frame, channelName).Some?
       && HandleCommand(ParseTwitchMessage(frame, channelName).value, moderators).Some?)
  {
    ParsedMentionsPrivmsg(frame, channelName);
  }

  lemma MarkerMentionsPrivmsg(frame: string)
    requires Contains(frame, Marker)
    ensures Contains(frame, "PRIVMSG")
  {
    var i := IndexOf(frame, Marker, 0).value;
    assert frame[i..][..|Marker|] == Marker;
    assert frame[i..][..7] == Marker[..7] == "PRIVMSG";
    ContainsAt(frame, "PRIVMSG", i);
  }

  lemma ParsedMentionsPrivmsg(frame: string, channelName: string)
    ensures ParseTwitchMessage(frame, channelName).Some? ==> Contains(frame, "PRIVMSG")
  {
    if MatchLine(frame).Some? {
      MarkerMentionsPrivmsg(frame);
    }
  }

  /**
   * `ws.onopen`: the three handshake lines in order. `roll` stands for
   * `Math.floor(Math.random() * 100000)`.
   */
  function Handshake(channelName: string, roll: nat): (lines: seq<string>)
    requires roll < NickRange
    ensures |lines| == 3
    ensures lines[0] == CapabilityRequest
    ensures StartsWith(lines[1], NickPrefix) && |NickPrefix| < |lines[1]| <= |NickPrefix| + 5
    ensures forall i :: |NickPrefix| <= i < |lines[1]| ==> IsDigit(lines[1][i])
    ensures |lines[1]| > |NickPrefix| + 1 ==> lines[1][|NickPrefix|] != '0'
    ensures DigitsValue(lines[1][|NickPrefix|..]) == roll
    ensures ParseInt(lines[1][|NickPrefix|..]) == Some(roll)
    ensures StartsWith(lines[2], JoinPrefix) && |lines[2]| == |JoinPrefix| + |channelName|
    ensures EqualsIgnoreCase(lines[2][|JoinPrefix|..], channelName)
    ensures forall i :: |JoinPrefix| <= i < |lines[2]| ==> !IsUpper(lines[2][i])
  {
    NickLine(roll);
    JoinLine(channelName);
    [CapabilityRequest, NickPrefix + DecimalString(roll), JoinPrefix + Lower(channelName)]
  }

  lemma NickLine(roll: nat)
    requires roll < NickRange
    ensures var nick := NickPrefix + DecimalString(roll);
      && StartsWith(nick, NickPrefix) && |NickPrefix| < |nick| <= |NickPrefix| + 5
      && (forall i :: |NickPrefix| <= i < |nick| ==> IsDigit(nick[i]))
      && (|nick| > |NickPrefix| + 1 ==> nick[|NickPrefix|] != '0')
      && DigitsValue(nick[|NickPrefix|..]) == roll
      && ParseInt(nick[|NickPrefix|..]) == Some(roll)
  {
    var digits := DecimalString(roll);
    var nick := NickPrefix + digits;
    FiveDigits(roll);
    DecimalValue(roll);
    ParseDecimalAlone(roll);
    PrefixThenRest(NickPrefix, digits);
    forall i | |NickPrefix| <= i < |nick|
      ensures IsDigit(nick[i])
    {
      assert nick[i] == digits[i - |NickPrefix|];
    }
  }

  lemma JoinLine(channelName: string)
    ensures var join := JoinPrefix + Lower(channelName);
      StartsWith(join, JoinPrefix) && |join| == |JoinPrefix| + |channelName|
      && EqualsIgnoreCase(join[|JoinPrefix|..], channelName)
      && forall i :: |JoinPrefix| <= i < |join| ==> !IsUpper(join[i])
  {
    var join := JoinPrefix + Lower(channelName);
    assert join[..|JoinPrefix|] == JoinPrefix;
    assert join[|JoinPrefix|..] == Lower(channelName);
    LowerIdempotent(channelName);
    forall i | |JoinPrefix| <= i < |join|
      ensures !IsUpper(join[i])
    {
      assert join[i] == Lower(channelName)[i - |JoinPrefix|];
    }
  }
}

=== FILE: numbers.dfy ===
/**
 * Decimal numbers: JavaScript's `parseInt(s)` (ASCII whitespace, optional sign,
 * longest run of decimal digits, `NaN` as `None`) and the decimal rendering a
 * template literal gives a non-negative integer.
 */
module Numbers {

  import opened Wrappers
  import opened Text

  function DigitValue(c: char): (d: nat)
    requires IsDigit(c)
    ensures d < 10
  {
    c as int - '0' as int
  }

  function DigitChar(d: nat): (c: char)
    requires d < 10
    ensures IsDigit(c) && DigitValue(c) == d
  {
    ('0' as int + d) as char
  }

  /** The longest prefix of `s` made of decimal digits. */
  function DigitPrefix(s: string): (ds: string)
    ensures |ds| <= |s| && ds == s[..|ds|]
    ensures forall i :: 0 <= i < |ds| ==> IsDigit(ds[i])
    ensures |ds| == |s| || !IsDigit(s[|ds|])
    decreases |s|
  {
    if |s| > 0 && IsDigit(s[0]) then [s[0]] + DigitPrefix(s[1..]) else ""
  }

  /** The value of a digit string read most-significant digit first. */
  function DigitsValue(ds: string): nat
    requires forall i :: 0 <= i < |ds| ==> IsDigit(ds[i])
    decreases |ds|
  {
    if |ds| == 0 then 0 else DigitsValue(ds[..|ds| - 1]) * 10 + DigitValue(ds[|ds| - 1])
  }

  /** `parseInt(s)` in base 10; `None` stands for `NaN`. */
  function ParseInt(s: string): (r: Option<int>)
    ensures (forall i :: 0 <= i < |s| ==> !IsDigit(s[i])) ==> r.None?
    ensures r.Some? && r.value < 0 ==> '-' in s
  {
    var t := TrimStart(s);
    var negative := |t| > 0 && t[0] == '-';
    var unsigned := if |t| > 0 && (t[0] == '-' || t[0] == '+') then t[1..] else t;
    var ds := DigitPrefix(unsigned);
    if |ds| == 0 then None
    else
      var v: int := DigitsValue(ds);
      assert ds[0] == t[|t| - |unsigned|] == s[|s| - |unsigned|];
      Some(if negative then -v else v)
  }

  /** `${n}` for a non-negative integer: decimal digits without leading zeros. */
  function DecimalString(n: nat): (s: string)
    ensures 1 <= |s|
    ensures forall i :: 0 <= i < |s| ==> IsDigit(s[i])
    ensures |s| > 1 ==> s[0] != '0'
    decreases n
  {
    if n < 10 then [DigitChar(n)] else DecimalString(n / 10) + [DigitChar(n % 10)]
  }

  lemma {:induction false} DecimalValue(n: nat)
    ensures DigitsValue(DecimalString(n)) == n
    decreases n
  {
    if n >= 10 {
      DecimalValue(n / 10);
      var s := DecimalString(n);
      assert s[..|s| - 1] == DecimalString(n / 10);
    }
  }

  lemma {:induction false} DecimalLength(n: nat, k: nat)
    requires n < Pow10(k)
    ensures |DecimalString(n)| <= if k == 0 then 1 else k
    decreases n
  {
    if n >= 10 {
      assert k >= 2;
      DecimalLength(n / 10, k - 1);
    }
  }

  function Pow10(k: nat): (p: nat)
    ensures p >= 1
  {
    if k == 0 then 1 else 10 * Pow10(k - 1)
  }

  /** Numbers below 100000 take at most five digits. */
  lemma FiveDigits(n: nat)
    requires n < 100000
    ensures 1 <= |DecimalString(n)| <= 5
  {
    assert Pow10(5) == 100000;
    DecimalLength(n, 5);
  }

  lemma {:induction false} DigitPrefixOf(ds: string, rest: string)
    requires forall i :: 0 <= i < |ds| ==> IsDigit(ds[i])
    requires rest == [] || !IsDigit(rest[0])
    ensures DigitPrefix(ds + rest) == ds
    decreases |ds|
  {
    if |ds| > 0 {
      assert (ds + rest)[1..] == ds[1..] + rest;
      DigitPrefixOf(ds[1..], rest);
    }
  }

  lemma TrimStartBlank(ws: string, t: string)
    requires IsBlank(ws)
    requires t == [] || !IsSpace(t[0])
    ensures TrimStart(ws + t) == t
  {
    var s := ws + t;
    if t != [] {
      assert s[|ws|] == t[0];
    }
    SkipSpacesTo(s, 0, |ws|);
    assert s[|ws|..] == t;
  }

  /** The decimal text of `n` on its own reads back as `n`. */
  lemma ParseDecimalAlone(n: nat)
    ensures ParseInt(DecimalString(n)) == Some(n)
  {
    ParseDecimal("", n, "");
    assert "" + DecimalString(n) + "" == DecimalString(n);
  }

  /**
   * `parseInt` reads back what the decimal rendering wrote, past leading
   * whitespace and up to the first non-digit: " 2", "2" and "2nd" all give 2.
   */
  lemma ParseDecimal(ws: string, n: nat, rest: string)
    requires IsBlank(ws)
    requires rest == [] || !IsDigit(rest[0])
    ensures ParseInt(ws + DecimalString(n) + rest) == Some(n)
  {
    var d := DecimalString(n);
    assert ws + d + rest == ws + (d + rest);
    assert (d + rest)[0] == d[0];
    TrimStartBlank(ws, d + rest);
    DigitPrefixOf(d, rest);
    ParseUnsigned(ws + d + rest, d + rest);
    DecimalValue(n);
  }

  /** Past the whitespace, a leading digit means no sign: the value is that of the digit run. */
  lemma ParseUnsigned(s: string, t: string)
    requires TrimStart(s) == t && |t| > 0 && IsDigit(t[0])
    ensures DigitPrefix(t) != []
    ensures ParseInt(s) == Some(DigitsValue(DigitPrefix(t)))
  {
    assert t[0] != '-' && t[0] != '+';
    assert DigitPrefix(t)[0] == t[0];
  }
}

=== FILE: pipeline.dfy ===
/**
 * One inbound frame through the whole widget, handled sequentially: the
 * hook routes and classifies it, and the callback it fires runs the widget's
 * handler against the current task list. A command changes the list only if
 * BOTH gates pass: the hook's (broadcaster, Twitch moderator, or listed
 * verbatim) and the widget's (owner or listed, case-insensitively).
 */
module Pipeline {

  import opened Wrappers
  import opened Text
  import opened Chat
  import opened Commands
  import opened Todos

  /** What handling one frame produced: the new widget state, what was sent back, the notice shown. */
  datatype StepResult = StepResult(state: WidgetState, sent: seq<string>, notice: Notice)

  /** The effective gate: the conjunction of the hook's check and the widget's check. */
  predicate EffectivelyAuthorized(msg: ChatMessage, channelName: string, moderators: seq<string>)
  {
    HookAuthorized(msg, moderators) && IsAuthorized(msg.username, channelName, moderators)
  }

  function Step(channelName: string, moderators: seq<string>, w: WidgetState, frame: string): (r: StepResult)
    ensures Contains(frame, "PING") ==> r.sent == [PongReply] && r.state == w
    ensures !Contains(frame, "PING") ==> r.sent == []
    ensures r.state != w ==> exists msg :: ParseTwitchMessage(frame, channelName) == Some(msg)
                                         && StartsWith(msg.message, CommandPrefix)
                                         && EffectivelyAuthorized(msg, channelName, moderators)
  {
    match OnMessage(frame, channelName, moderators)
    case Reply(line) => StepResult(w, [line], Quiet)
    case Ignore => StepResult(w, [], Quiet)
    case Fire(cb) =>
      var e := Apply(w, channelName, moderators, cb);
      StepResult(e.state, [], e.notice)
  }

  /**
   * For a parsed message the two gates together admit the channel owner, and
   * otherwise only a user listed case-insensitively who is also a Twitch
   * moderator or listed verbatim in lower case.
   */
  lemma EffectiveAuthorization(msg: ChatMessage, channelName: string, moderators: seq<string>)
    requires msg.isBroadcaster == EqualsIgnoreCase(msg.username, channelName)
    ensures EffectivelyAuthorized(msg, channelName, moderators) <==>
      msg.isBroadcaster
      || (Lower(msg.username) in LowerAll(moderators) && (msg.isMod || Lower(msg.username) in moderators))
  {
    var name := Lower(msg.username);
    if name in moderators {
      var i :| 0 <= i < |moderators| && moderators[i] == name;
      LowerIdempotent(msg.username);
      assert LowerAll(moderators)[i] == name;
    }
  }

  /** A Twitch moderator who is neither the owner nor configured changes nothing. */
  lemma TwitchModeratorAloneChangesNothing(channelName: string, moderators: seq<string>, w: WidgetState, frame: string)
    requires var m := ParseTwitchMessage(frame, channelName);
      m.Some? && !m.value.isBroadcaster && Lower(m.value.username) !in LowerAll(moderators)
    ensures Step(channelName, moderators, w, frame).state == w
  {
    var msg := ParseTwitchMessage(frame, channelName).value;
    EffectiveAuthorization(msg, channelName, moderators);
  }

  /** The widget checks the same user against the same settings each time, so hiding twice restores the widget. */
  lemma ToggleWidgetTwice(channelName: string, moderators: seq<string>, w: WidgetState, frame: string)
    requires OnMessage(frame, channelName, moderators).Fire?
    requires OnMessage(frame, channelName, moderators).callback.kind == ToggleWidget
    ensures var once := Step(channelName, moderators, w, frame).state;
      Step(channelName, moderators, once, frame).state == w
  {
  }

  /** An authorized add appends one open task holding the command's text. */
  lemma AddAppends(channelName: string, moderators: seq<string>, w: WidgetState, frame: string)
    requires OnMessage(frame, channelName, moderators).Fire?
    requires var cb := OnMessage(frame, channelName, moderators).callback;
      cb.kind == Add && IsAuthorized(cb.user, channelName, moderators)
    ensures var cb := OnMessage(frame, channelName, moderators).callback;
      Step(channelName, moderators, w, frame) == StepResult(w.(todos := w.todos + [Todo(cb.text, false)]), [], Success)
  {
  }

  /** An authorized clear empties the list whatever text follows it. */
  lemma ClearEmpties(channelName: string, moderators: seq<string>, w: WidgetState, frame: string)
    requires OnMessage(frame, channelName, moderators).Fire?
    requires var cb := OnMessage(frame, channelName, moderators).callback;
      cb.kind == Clear && IsAuthorized(cb.user, channelName, moderators)
    ensures Step(channelName, moderators, w, frame).state == w.(todos := [])
  {
  }
}

=== FILE: scenarios.dfy ===
/** Concrete frames and what the model proves about them. */
module Scenarios {

  import opened Wrappers
  import opened Text
  import opened Chat
  import opened ChatLines
  import opened Commands
  import opened Todos
  import opened Pipeline

  const AliceTags: string := "display-name=" + "Alice" + ";" + "mod=" + "1"
  const AlicePrefix: string := "alice!alice@host.tmi.twitch.tv"
  const AliceBody: string := "!todo add buy milk"
  /** A chat frame as it arrives, ended by `\r\n`. */
  const AliceLine: string := FormatLine(AliceTags, AlicePrefix, "seailo", AliceBody) + "\r\n"
  const Alice: ChatMessage := ChatMessage("Alice", AliceBody, true, false)

  lemma AliceLineShape()
    ensures MatchLine(AliceLine) == Some(RawMatch(AliceTags, AliceBody))
  {
    NoMarkerWithoutLetterP(AliceBody);
    ParseFormatted(AliceTags, AlicePrefix, "seailo", AliceBody, "\r\n");
  }

  lemma AliceDisplayName()
    ensures TagValue(AliceTags, "display-name") == Some("Alice")
  {
    ValueAtParts([], "display-name", "Alice", ";mod=1");
    assert [] + "display-name" + "=" + "Alice" + ";mod=1" == AliceTags;
    TagValueFound(AliceTags, "display-name", 0, "Alice");
  }

  lemma AliceModFlag()
    ensures TagValue(AliceTags, "mod") == Some("1")
  {
    ValueAtParts("display-name=Alice;", "mod", "1", []);
    assert "display-name=Alice;" + "mod" + "=" + "1" + [] == AliceTags;
    forall k | 0 <= k < 19
      ensures !ValueStartsAt(AliceTags, "mod", k)
    {
      assert AliceTags[k + 3] != '=' || AliceTags[k] != 'm';
      assert AliceTags[k..][..4][0] == AliceTags[k] && AliceTags[k..][..4][3] == AliceTags[k + 3];
    }
    TagValueFound(AliceTags, "mod", 19, "1");
  }

  /** The line yields Alice, a Twitch moderator, who is not the owner of `seailo`. */
  lemma AliceParses()
    ensures ParseTwitchMessage(AliceLine, "seailo") == Some(Alice)
  {
    AliceLineShape();
    AliceDisplayName();
    AliceModFlag();
    assert Lower("Alice") != Lower("seailo") by {
      assert Lower("Alice")[0] == 'a' != Lower("seailo")[0];
    }
  }

  lemma AliceLineHasNoPing()
    ensures !Contains(AliceLine, "PING")
  {
    assert 'N' !in AliceTags && 'N' !in AlicePrefix && 'N' !in "seailo" && 'N' !in AliceBody;
    assert 'N' !in Marker && 'N' !in "\r\n";
    assert "PING"[2] == 'N';
    NotContainsChar(AliceLine, "PING", 2);
  }

  lemma AliceCommand(moderators: seq<string>)
    ensures HandleCommand(Alice, moderators) == Some(Callback(Add, "buy milk", "Alice"))
  {
    assert AliceBody == CommandPrefix + " " + "add" + " " + "buy milk";
    assert Lower("add") == "add";
    assert "add" in Synonyms(Add);
    CommandOfWords(Alice, moderators, "add", "buy milk");
  }

  /** The hook fires `onAddTodo("buy milk", "Alice")` whatever the configured list, since Alice has `mod=1`. */
  lemma AliceFiresAdd(moderators: seq<string>)
    ensures OnMessage(AliceLine, "seailo", moderators) == Fire(Callback(Add, "buy milk", "Alice"))
  {
    AliceLineHasNoPing();
    AliceParses();
    ParsedMentionsPrivmsg(AliceLine, "seailo");
    AliceCommand(moderators);
  }

  /** With no configured moderators the widget's own gate turns Alice away: the list is unchanged. */
  lemma AliceAloneChangesNothing(w: WidgetState)
    ensures Step("seailo", [], w, AliceLine).state == w
  {
    AliceFiresAdd([]);
  }

  /** Once `alice` is configured, the same line appends one open task. */
  lemma AliceConfiguredAdds(w: WidgetState)
    ensures Step("seailo", ["alice"], w, AliceLine).state == w.(todos := w.todos + [Todo("buy milk", false)])
  {
    AliceFiresAdd(["alice"]);
    AliceListed();
  }

  lemma AliceListed()
    ensures IsAuthorized("Alice", "seailo", ["alice"])
  {
    assert Lower("Alice") == "alice";
    assert Lower("alice") == "alice";
    assert LowerAll(["alice"])[0] == Lower("alice");
  }

  /** A keep-alive probe is answered with the fixed reply and changes nothing. */
  lemma PingAnswered(channelName: string, moderators: seq<string>, w: WidgetState)
    ensures Step(channelName, moderators, w, "PING :tmi.twitch.tv") == StepResult(w, [PongReply], Quiet)
  {
    ContainsAt("PING :tmi.twitch.tv", "PING", 0);
  }

  /** An unknown keyword fires nothing, even for the owner. */
  lemma UnknownKeyword(moderators: seq<string>)
    ensures HandleCommand(ChatMessage("seailo", "!todo bogus xyz", false, true), moderators).None?
  {
    var msg := ChatMessage("seailo", "!todo bogus xyz", false, true);
    assert msg.message == CommandPrefix + " " + "bogus" + " " + "xyz";
    assert Lower("bogus") == "bogus";
    assert forall k: Kind :: "bogus" !in Synonyms(k);
    CommandOfWords(msg, moderators, "bogus", "xyz");
  }

  /** A sender who is neither owner, Twitch moderator nor listed fires nothing. */
  lemma StrangerIgnored()
    ensures HandleCommand(ChatMessage("Eve", "!todo del 2", false, false), ["bob"]).None?
  {
    assert Lower("Eve") != "bob" by {
      assert Lower("Eve")[0] == 'e';
    }
  }

  /**
   * The hook compares the lower-cased name with the list entries as stored,
   * so an entry with capitals admits its user only if that user is also a
   * Twitch moderator, although the widget's gate would accept the user.
   */
  lemma CapitalisedEntryNeedsTwitchModerator()
    ensures IsAuthorized("Bob", "seailo", ["Bob"])
    ensures HandleCommand(ChatMessage("Bob", "!todo add x", false, false), ["Bob"]).None?
  {
    assert Lower("Bob") == "bob";
    assert LowerAll(["Bob"]) == ["bob"];
  }

  /** A `key=` cannot start where the text differs from the key's first two characters. */
  lemma NoKeyAt(tags: string, key: string, k: nat)
    requires 2 <= |key| && k + 1 < |tags|
    requires tags[k] != key[0] || tags[k + 1] != key[1]
    ensures !ValueStartsAt(tags, key, k)
  {
    if k + |key| + 1 <= |tags| {
      assert tags[k..][..|key| + 1][0] == tags[k] && tags[k..][..|key| + 1][1] == tags[k + 1];
    }
  }

  /**
   * A reply to the owner from a sender whose own `display-name` is empty. The
   * tag lookup is not anchored at a key boundary, so it skips the empty value
   * and takes the one inside `reply-parent-display-name`.
   */
  const EmptyName: string := "display-name=;"
  const ModZero: string := "mod=0;"
  const ReplyParent: string := "reply-parent-"
  const ReplyTags: string := EmptyName + ModZero + ReplyParent + "display-name" + "=" + "Seailo"
  const ReplyPrefix: string := "eve!eve@host.tmi.twitch.tv"
  const ReplyLine: string := FormatLine(ReplyTags, ReplyPrefix, "seailo", "!todo clear") + "\r\n"

  lemma ReplyDisplayName()
    ensures TagValue(ReplyTags, "display-name") == Some("Seailo")
  {
    var tags := ReplyTags;
    var key := "display-name";
    ValueAtParts(EmptyName + ModZero + ReplyParent, key, "Seailo", []);
    assert EmptyName + ModZero + ReplyParent + key + "=" + "Seailo" + [] == tags;
    assert tags[13] == EmptyName[13] == ';';
    forall k | 1 <= k < 14
      ensures !ValueStartsAt(tags, key, k)
    {
      assert tags[k] == EmptyName[k] && EmptyName[k] != 'd';
      NoKeyAt(tags, key, k);
    }
    forall k | 14 <= k < 20
      ensures !ValueStartsAt(tags, key, k)
    {
      assert tags[k] == ModZero[k - 14];
      if k == 16 {
        assert tags[k + 1] == ModZero[3] == '=';
      } else {
        assert ModZero[k - 14] != 'd';
      }
      NoKeyAt(tags, key, k);
    }
    forall k | 20 <= k < 33
      ensures !ValueStartsAt(tags, key, k)
    {
      assert tags[k] == ReplyParent[k - 20] && ReplyParent[k - 20] != 'd';
      NoKeyAt(tags, key, k);
    }
    TagValueFound(tags, key, 33, "Seailo");
  }

  lemma ReplyModFlag()
    ensures TagValue(ReplyTags, "mod") == Some("0")
  {
    var post := ";" + ReplyParent + "display-name" + "=" + "Seailo";
    ValueAtParts(EmptyName, "mod", "0", post);
    assert EmptyName + "mod" + "=" + "0" + post == ReplyTags;
    NoModBefore();
    TagValueFound(ReplyTags, "mod", 14, "0");
  }

  /** `mod=` appears nowhere inside the empty `display-name=;`. */
  lemma NoModBefore()
    ensures forall k :: 0 <= k < 14 ==> !ValueStartsAt(ReplyTags, "mod", k)
  {
    forall k | 0 <= k < 14
      ensures !ValueStartsAt(ReplyTags, "mod", k)
    {
      assert ReplyTags[k] == EmptyName[k];
      if k == 10 {
        assert ReplyTags[k + 1] == EmptyName[11] == 'e';
      } else {
        assert EmptyName[k] != 'm';
      }
      NoKeyAt(ReplyTags, "mod", k);
    }
  }

  lemma ReplyTagsWellFormed()
    ensures WellFormedTags(ReplyTags)
  {
    assert ReplyTags == EmptyName + ModZero + ReplyParent + "display-name" + "=" + "Seailo";
  }

  lemma ReplyLineShape()
    ensures MatchLine(ReplyLine) == Some(RawMatch(ReplyTags, "!todo clear"))
  {
    ReplyTagsWellFormed();
    NoMarkerWithoutLetterP("!todo clear");
    ParseFormatted(ReplyTags, ReplyPrefix, "seailo", "!todo clear", "\r\n");
  }

  lemma ReplyLineHasNoPing()
    ensures !Contains(ReplyLine, "PING")
  {
    assert 'N' !in EmptyName && 'N' !in ModZero && 'N' !in ReplyParent && 'N' !in "display-name" && 'N' !in "Seailo";
    assert 'N' !in ReplyPrefix && 'N' !in "seailo" && 'N' !in "!todo clear";
    assert 'N' !in Marker && 'N' !in "\r\n";
    assert "PING"[2] == 'N';
    NotContainsChar(ReplyLine, "PING", 2);
  }
  /** A parsed message from its captures and the two tag lookups. */
  lemma ParsedFrom(raw: string, channelName: string, tags: string, body: string, name: string, mod: string)
    requires MatchLine(raw) == Some(RawMatch(tags, body))
    requires TagValue(tags, "display-name") == Some(name)
    requires TagValue(tags, "mod") == Some(mod)
    ensures ParseTwitchMessage(raw, channelName)
      == Some(ChatMessage(name, body, mod == "1", EqualsIgnoreCase(name, channelName)))
  {
  }

  /** The sender is read as `Seailo`, the owner of the channel. */
  lemma EmptyNameReplyReadAsOwner()
    ensures ParseTwitchMessage(ReplyLine, "seailo") == Some(ChatMessage("Seailo", "!todo clear", false, true))
  {
    ReplyLineShape();
    ReplyDisplayName();
    ReplyModFlag();
    ParsedFrom(ReplyLine, "seailo", ReplyTags, "!todo clear", "Seailo", "0");
    OwnerNameIgnoringCase();
  }

  lemma OwnerNameIgnoringCase()
    ensures EqualsIgnoreCase("Seailo", "seailo")
  {
    assert Lower("Seailo")[0] == 's';
    assert Lower("Seailo")[1..] == "eailo";
    assert Lower("seailo") == "seailo";
  }

  lemma OwnerClearCommand(moderators: seq<string>)
    ensures HandleCommand(ChatMessage("Seailo", "!todo clear", false, true), moderators)
      == Some(Callback(Clear, [], "Seailo"))
  {
    var msg := ChatMessage("Seailo", "!todo clear", false, true);
    assert msg.message == CommandPrefix + " " + "clear";
    assert Lower("clear") == "clear";
    assert "clear" in Synonyms(Clear);
    BareCommand(msg, moderators, "clear");
  }

  /** The hook fires the clear callback for the reply, whatever moderators are configured. */
  lemma EmptyNameReplyFiresClear(moderators: seq<string>)
    ensures OnMessage(ReplyLine, "seailo", moderators) == Fire(Callback(Clear, [], "Seailo"))
  {
    ReplyLineHasNoPing();
    EmptyNameReplyReadAsOwner();
    ParsedMentionsPrivmsg(ReplyLine, "seailo");
    OwnerClearCommand(moderators);
  }

  /** So the reply passes both gates and empties the list. */
  lemma EmptyNameReplyClears(moderators: seq<string>, w: WidgetState)
    ensures Step("seailo", moderators, w, ReplyLine).state == w.(todos := [])
  {
    EmptyNameReplyFiresClear(moderators);
    OwnerNameIgnoringCase();
  }
}

=== FILE: text.dfy ===
/**
 * ASCII character classes and the string primitives the widget relies on:
 * `toLowerCase`, `trim`, `startsWith`, `indexOf` and `includes`.
 * Case folding and whitespace are restricted to ASCII.
 */
module Text {

  import opened Wrappers

  /** ASCII members of the JavaScript `\s` class and of `trim`'s whitespace set. */
  predicate IsSpace(c: char)
  {
    c == ' ' || c == '\t' || c == '\n' || c == '\U{B}' || c == '\U{C}' || c == '\r'
  }

  /** The characters the regular-expression `.` refuses to match. */
  predicate IsLineTerminator(c: char)
  {
    c == '\n' || c == '\r' || c == '\U{2028}' || c == '\U{2029}'
  }

  /** The regular-expression `\w` class. */
  predicate IsWordChar(c: char)
  {
    ('a' <= c <= 'z') || ('A' <= c <= 'Z') || ('0' <= c <= '9') || c == '_'
  }

  predicate IsDigit(c: char)
  {
    '0' <= c <= '9'
  }

  predicate IsUpper(c: char)
  {
    'A' <= c <= 'Z'
  }

  function LowerChar(c: char): (d: char)
    ensures !IsUpper(d)
    ensures !IsUpper(c) ==> d == c
    ensures IsUpper(c) ==> d as int == c as int + 32
  {
    if IsUpper(c) then (c as int + 32) as char else c
  }

  /** ASCII `toLowerCase`. */
  function Lower(s: string): (r: string)
    ensures |r| == |s|
    ensures forall i :: 0 <= i < |s| ==> r[i] == LowerChar(s[i])
  {
    seq(|s|, i requires 0 <= i < |s| => LowerChar(s[i]))
  }

  lemma LowerIdempotent(s: string)
    ensures Lower(Lower(s)) == Lower(s)
  {
  }

  /** Case-insensitive equality as the source writes it: `a.toLowerCase() === b.toLowerCase()`. */
  predicate EqualsIgnoreCase(a: string, b: string)
  {
    Lower(a) == Lower(b)
  }

  /** `moderators.map(m => m.toLowerCase())`. */
  function LowerAll(xs: seq<string>): (r: seq<string>)
    ensures |r| == |xs|
    ensures forall i :: 0 <= i < |xs| ==> r[i] == Lower(xs[i])
  {
    seq(|xs|, i requires 0 <= i < |xs| => Lower(xs[i]))
  }

  predicate IsBlank(s: string)
  {
    forall i :: 0 <= i < |s| ==> IsSpace(s[i])
  }

  /** The first non-space at or after `i`, or `|s|` when there is none. */
  function SkipSpaces(s: string, i: nat): (k: nat)
    requires i <= |s|
    ensures i <= k <= |s|
    ensures forall j :: i <= j < k ==> IsSpace(s[j])
    ensures k == |s| || !IsSpace(s[k])
    decreases |s| - i
  {
    if i < |s| && IsSpace(s[i]) then SkipSpaces(s, i + 1) else i
  }

  /** The end of `s[..e]` once its trailing whitespace is dropped. */
  function SkipSpacesBack(s: string, e: nat): (k: nat)
    requires e <= |s|
    ensures k <= e
    ensures forall j :: k <= j < e ==> IsSpace(s[j])
    ensures k == 0 || !IsSpace(s[k - 1])
    decreases e
  {
    if e > 0 && IsSpace(s[e - 1]) then SkipSpacesBack(s, e - 1) else e
  }

  lemma {:induction false} SkipSpacesTo(s: string, i: nat, k: nat)
    requires i <= k <= |s|
    requires forall j :: i <= j < k ==> IsSpace(s[j])
    requires k == |s| || !IsSpace(s[k])
    ensures SkipSpaces(s, i) == k
    decreases k - i
  {
    if i < k {
      SkipSpacesTo(s, i + 1, k);
    }
  }

  /** Drops leading whitespace: the suffix that starts at the first non-space. */
  function TrimStart(s: string): (r: string)
    ensures |r| <= |s| && r == s[|s| - |r|..]
    ensures forall i :: 0 <= i < |s| - |r| ==> IsSpace(s[i])
    ensures r == [] || !IsSpace(r[0])
  {
    s[SkipSpaces(s, 0)..]
  }

  /** ASCII `String.prototype.trim`. */
  function Trim(s: string): (r: string)
    ensures exists i :: (0 <= i <= |s| - |r| && r == s[i..i + |r|]
                         && IsBlank(s[..i]) && IsBlank(s[i + |r|..]))
    ensures r == [] || (!IsSpace(r[0]) && !IsSpace(r[|r| - 1]))
    ensures r == [] <==> IsBlank(s)
  {
    var i := SkipSpaces(s, 0);
    var e := SkipSpacesBack(s, |s|);
    if e <= i then
      assert IsBlank(s[..|s|]);
      []
    else
      assert IsBlank(s[..i]) && IsBlank(s[e..]);
      s[i..e]
  }

  lemma {:induction false} TrimIdempotent(s: string)
    ensures Trim(Trim(s)) == Trim(s)
  {
    var r := Trim(s);
    if r != [] {
      assert SkipSpaces(r, 0) == 0;
      assert SkipSpacesBack(r, |r|) == |r|;
      assert r[0..|r|] == r;
    }
  }

  /** `s.startsWith(p)`. */
  predicate StartsWith(s: string, p: string)
  {
    |p| <= |s| && s[..|p|] == p
  }

  /** `s.indexOf(sub, from)`, with `None` for `-1`. */
  function IndexOf(s: string, sub: string, from: nat): (r: Option<nat>)
    requires from <= |s|
    ensures r.Some? ==> from <= r.value <= |s| && StartsWith(s[r.value..], sub)
    ensures r.Some? ==> forall j :: from <= j < r.value ==> !StartsWith(s[j..], sub)
    ensures r.None? ==> forall j :: from <= j <= |s| ==> !StartsWith(s[j..], sub)
    decreases |s| - from
  {
    if StartsWith(s[from..], sub) then Some(from)
    else if from == |s| then None
    else IndexOf(s, sub, from + 1)
  }

  /** `s.includes(sub)`. */
  predicate Contains(s: string, sub: string)
  {
    IndexOf(s, sub, 0).Some?
  }

  lemma ContainsAt(s: string, sub: string, k: nat)
    requires k <= |s| && StartsWith(s[k..], sub)
    ensures Contains(s, sub)
  {
  }

  /** A text lacking one of the characters of `sub` does not contain `sub`. */
  lemma NotContainsChar(s: string, sub: string, i: nat)
    requires i < |sub| && sub[i] !in s
    ensures !Contains(s, sub)
  {
    forall j | 0 <= j <= |s|
      ensures !StartsWith(s[j..], sub)
    {
      if j + |sub| <= |s| {
        assert s[j..][..|sub|][i] == s[j + i];
      }
    }
  }

  /** A text glued after `p` starts with `p`, and what follows `p` is the text. */
  lemma PrefixThenRest(p: string, x: string)
    ensures StartsWith(p + x, p) && (p + x)[|p|..] == x
  {
    assert (p + x)[..|p|] == p;
  }
}

=== FILE: todos.dfy ===
/**
 * The task list of the widget and what each command callback does to it.
 * Every handler first applies the widget's own authorization gate and is a
 * no-op for anyone else. Task ids and timestamps come from the clock and are
 * not modelled; notifications are reduced to their kind.
 */
module Todos {

  import opened Wrappers
  import opened Text
  import opened Numbers
  import opened Commands

  datatype Todo = Todo(text: string, completed: bool)

  /** The widget's state: its task list and whether it is shown. */
  datatype WidgetState = WidgetState(todos: seq<Todo>, widgetVisible: bool)

  /** The kind of notification a handler shows: none, a success, or "not found". */
  datatype Notice = Quiet | Success | NotFound

  datatype Effect = Effect(state: WidgetState, notice: Notice)

  /**
   * The widget's gate: the user is the channel owner, or is in the lower-cased
   * moderator list, both compared case-insensitively. The Twitch `mod` flag
   * plays no part.
   */
  predicate IsAuthorized(username: string, channelName: string, moderators: seq<string>)
  {
    EqualsIgnoreCase(username, channelName) || Lower(username) in LowerAll(moderators)
  }

  /**
   * The widget's gate ignores case on every side: the user's name, the owner's
   * name and each entry of the list.
   */
  lemma AuthorizedIgnoringCase(username: string, channelName: string, moderators: seq<string>)
    ensures IsAuthorized(username, channelName, moderators) <==>
      Lower(username) == Lower(channelName)
      || exists i :: 0 <= i < |moderators| && Lower(moderators[i]) == Lower(username)
    ensures IsAuthorized(username, channelName, moderators)
      == IsAuthorized(Lower(username), Lower(channelName), LowerAll(moderators))
  {
    LowerIdempotent(username);
    LowerIdempotent(channelName);
    forall i | 0 <= i < |moderators|
      ensures LowerAll(LowerAll(moderators))[i] == LowerAll(moderators)[i]
    {
      LowerIdempotent(moderators[i]);
    }
    assert LowerAll(LowerAll(moderators)) == LowerAll(moderators);
    if Lower(username) in LowerAll(moderators) {
      var i :| 0 <= i < |moderators| && LowerAll(moderators)[i] == Lower(username);
      assert Lower(moderators[i]) == Lower(username);
    }
  }

  /** `addTodo`: one new open task at the end. */
  function AddTodo(todos: seq<Todo>, text: string): (r: seq<Todo>)
    ensures |r| == |todos| + 1
    ensures r[..|todos|] == todos
    ensures r[|todos|].text == text && !r[|todos|].completed
  {
    todos + [Todo(text, false)]
  }

  /** `deleteTodo`: keeps every task whose position differs from `index`. */
  function DeleteTodo(todos: seq<Todo>, index: int): (r: seq<Todo>)
    ensures 0 <= index < |todos| ==> r == todos[..index] + todos[index + 1..]
    ensures !(0 <= index < |todos|) ==> r == todos
    decreases |todos|
  {
    if |todos| == 0 then []
    else if index == 0 then DeleteTodo(todos[1..], index - 1)
    else [todos[0]] + DeleteTodo(todos[1..], index - 1)
  }

  /** `toggleTodo`: flips `completed` of the task at `index` only. */
  function ToggleTodo(todos: seq<Todo>, index: int): (r: seq<Todo>)
    ensures |r| == |todos|
    ensures forall j :: 0 <= j < |r| ==> r[j].text == todos[j].text
    ensures forall j :: 0 <= j < |r| ==> (r[j].completed != todos[j].completed <==> j == index)
  {
    seq(|todos|, j requires 0 <= j < |todos| =>
      if j == index then todos[j].(completed := !todos[j].completed) else todos[j])
  }

  lemma ToggleTwice(todos: seq<Todo>, index: int)
    ensures ToggleTodo(ToggleTodo(todos, index), index) == todos
  {
  }

  /** Whether the task's text contains the token, ignoring case. */
  predicate Mentions(todo: Todo, token: string)
  {
    Contains(Lower(todo.text), Lower(token))
  }

  /** `todos.findIndex(...)` from position `from` on. */
  function FindMention(todos: seq<Todo>, token: string, from: nat): (r: Option<nat>)
    requires from <= |todos|
    ensures r.Some? ==> from <= r.value < |todos| && Mentions(todos[r.value], token)
    ensures r.Some? ==> forall j :: from <= j < r.value ==> !Mentions(todos[j], token)
    ensures r.None? ==> forall j :: from <= j < |todos| ==> !Mentions(todos[j], token)
    decreases |todos| - from
  {
    if from == |todos| then None
    else if Mentions(todos[from], token) then Some(from)
    else FindMention(todos, token, from + 1)
  }

  /**
   * The target of a delete or toggle: a 1-based ordinal if `parseInt` reads
   * one within range, otherwise the first task that mentions the token.
   */
  function ResolveToken(todos: seq<Todo>, token: string): (r: Option<nat>)
    ensures r.Some? ==> r.value < |todos|
    ensures var n := ParseInt(token);
      n.Some? && 1 <= n.value <= |todos| ==> r == Some(n.value - 1)
    ensures var n := ParseInt(token);
      !(n.Some? && 1 <= n.value <= |todos|) ==>
        && (r.None? <==> forall j :: 0 <= j < |todos| ==> !Mentions(todos[j], token))
        && (r.Some? ==> Mentions(todos[r.value], token))
        && (r.Some? ==> forall j :: 0 <= j < r.value ==> !Mentions(todos[j], token))
  {
    var n := ParseInt(token);
    if n.Some? && 1 <= n.value <= |todos| then Some(n.value - 1)
    else FindMention(todos, token, 0)
  }

  /** A token that reads as an in-range ordinal, such as "2", " 2" or "2nd", names that task. */
  lemma ResolveOrdinal(todos: seq<Todo>, ws: string, n: nat, rest: string)
    requires IsBlank(ws) && (rest == [] || !IsDigit(rest[0]))
    requires 1 <= n <= |todos|
    ensures ResolveToken(todos, ws + DecimalString(n) + rest) == Some(n - 1)
  {
    ParseDecimal(ws, n, rest);
  }

  /** `!todo del <n>`, for any token that `parseInt` reads as an in-range `n`, removes the n-th task and keeps the rest in order. */
  lemma DeleteByOrdinal(w: WidgetState, channelName: string, moderators: seq<string>, user: string, token: string, n: int)
    requires IsAuthorized(user, channelName, moderators)
    requires ParseInt(token) == Some(n) && 1 <= n <= |w.todos|
    ensures OnDeleteTodo(w, channelName, moderators, token, user)
      == Effect(w.(todos := w.todos[..n - 1] + w.todos[n..]), Success)
  {
    DeleteResolved(w, channelName, moderators, token, user, n - 1);
  }

  lemma DeleteResolved(w: WidgetState, channelName: string, moderators: seq<string>, token: string, user: string, i: nat)
    requires IsAuthorized(user, channelName, moderators) && ResolveToken(w.todos, token) == Some(i)
    ensures i < |w.todos|
    ensures OnDeleteTodo(w, channelName, moderators, token, user)
      == Effect(w.(todos := w.todos[..i] + w.todos[i + 1..]), Success)
  {
  }

  /** `!todo done <n>`, for a token that `parseInt` reads as an in-range `n`, flips the n-th task only. */
  lemma ToggleByOrdinal(w: WidgetState, channelName: string, moderators: seq<string>, user: string, token: string, n: int)
    requires IsAuthorized(user, channelName, moderators)
    requires ParseInt(token) == Some(n) && 1 <= n <= |w.todos|
    ensures var r := OnToggleTodo(w, channelName, moderators, token, user);
      && r.notice == Success
      && r.state.todos[n - 1] == w.todos[n - 1].(completed := !w.todos[n - 1].completed)
      && forall j :: 0 <= j < |w.todos| && j != n - 1 ==> r.state.todos[j] == w.todos[j]
  {
    ToggleResolved(w, channelName, moderators, token, user, n - 1);
  }

  lemma ToggleResolved(w: WidgetState, channelName: string, moderators: seq<string>, token: string, user: string, i: nat)
    requires IsAuthorized(user, channelName, moderators) && ResolveToken(w.todos, token) == Some(i)
    ensures OnToggleTodo(w, channelName, moderators, token, user)
      == Effect(w.(todos := ToggleTodo(w.todos, i)), Success)
  {
  }

  /** A token matching neither an in-range ordinal nor any task leaves the list alone and reports "not found". */
  lemma UnresolvedToken(w: WidgetState, channelName: string, moderators: seq<string>, user: string, token: string)
    requires IsAuthorized(user, channelName, moderators)
    requires ParseInt(token).None? || ParseInt(token).value < 1 || ParseInt(token).value > |w.todos|
    requires forall j :: 0 <= j < |w.todos| ==> !Mentions(w.todos[j], token)
    ensures OnDeleteTodo(w, channelName, moderators, token, user) == Effect(w, NotFound)
    ensures OnToggleTodo(w, channelName, moderators, token, user) == Effect(w, NotFound)
  {
  }

  /** `onAddTodo`. */
  function OnAddTodo(w: WidgetState, channelName: string, moderators: seq<string>, text: string, user: string): (r: Effect)
    ensures !IsAuthorized(user, channelName, moderators) ==> r == Effect(w, Quiet)
    ensures IsAuthorized(user, channelName, moderators) ==>
      r.state.todos == w.todos + [Todo(text, false)] && r.state.widgetVisible == w.widgetVisible
  {
    if IsAuthorized(user, channelName, moderators) then
      Effect(w.(todos := AddTodo(w.todos, text)), Success)
    else Effect(w, Quiet)
  }

  /** `onDeleteTodo`. */
  function OnDeleteTodo(w: WidgetState, channelName: string, moderators: seq<string>, token: string, user: string): (r: Effect)
    ensures !IsAuthorized(user, channelName, moderators) ==> r == Effect(w, Quiet)
    ensures r.state.widgetVisible == w.widgetVisible
    ensures r.notice == NotFound <==> IsAuthorized(user, channelName, moderators) && ResolveToken(w.todos, token).None?
    ensures r.notice == NotFound ==> r.state == w
    ensures r.notice == Success ==> exists i :: 0 <= i < |w.todos| && r.state.todos == w.todos[..i] + w.todos[i + 1..]
  {
    if IsAuthorized(user, channelName, moderators) then
      match ResolveToken(w.todos, token)
      case Some(i) => Effect(w.(todos := DeleteTodo(w.todos, i)), Success)
      case None => Effect(w, NotFound)
    else Effect(w, Quiet)
  }

  /** `onToggleTodo`. */
  function OnToggleTodo(w: WidgetState, channelName: string, moderators: seq<string>, token: string, user: string): (r: Effect)
    ensures !IsAuthorized(user, channelName, moderators) ==> r == Effect(w, Quiet)
    ensures r.state.widgetVisible == w.widgetVisible
    ensures |r.state.todos| == |w.todos|
    ensures r.notice == NotFound <==> IsAuthorized(user, channelName, moderators) && ResolveToken(w.todos, token).None?
    ensures r.notice == NotFound ==> r.state == w
    ensures r.notice == Success ==> exists i :: 0 <= i < |w.todos| && r.state.todos == ToggleTodo(w.todos, i)
  {
    if IsAuthorized(user, channelName, moderators) then
      match ResolveToken(w.todos, token)
      case Some(i) => Effect(w.(todos := ToggleTodo(w.todos, i)), Success)
      case None => Effect(w, NotFound)
    else Effect(w, Quiet)
  }

  /** `onClearTodos`: the text argument is ignored. */
  function OnClearTodos(w: WidgetState, channelName: string, moderators: seq<string>, user: string): (r: Effect)
    ensures !IsAuthorized(user, channelName, moderators) ==> r == Effect(w, Quiet)
    ensures IsAuthorized(user, channelName, moderators) ==> r.state.todos == [] && r.state.widgetVisible == w.widgetVisible
  {
    if IsAuthorized(user, channelName, moderators) then Effect(w.(todos := []), Success)
    else Effect(w, Quiet)
  }

  /** `onToggleWidget`. */
  function OnToggleWidget(w: WidgetState, channelName: string, moderators: seq<string>, user: string): (r: Effect)
    ensures !IsAuthorized(user, channelName, moderators) ==> r == Effect(w, Quiet)
    ensures IsAuthorized(user, channelName, moderators) ==> r.state.widgetVisible != w.widgetVisible && r.state.todos == w.todos
  {
    if IsAuthorized(user, channelName, moderators) then Effect(w.(widgetVisible := !w.widgetVisible), Success)
    else Effect(w, Quiet)
  }

  /** Runs the callback the hook fired. */
  function Apply(w: WidgetState, channelName: string, moderators: seq<string>, cb: Callback): (r: Effect)
    ensures !IsAuthorized(cb.user, channelName, moderators) ==> r == Effect(w, Quiet)
    ensures IsAuthorized(cb.user, channelName, moderators) && cb.kind == Add ==>
      r == Effect(w.(todos := w.todos + [Todo(cb.text, false)]), Success)
    ensures var target := ResolveToken(w.todos, cb.text);
      IsAuthorized(cb.user, channelName, moderators) && cb.kind == Delete ==>
        && (target.None? ==> r == Effect(w, NotFound))
        && (target.Some? ==> r == Effect(w.(todos := w.todos[..target.value] + w.todos[target.value + 1..]), Success))
    ensures var target := ResolveToken(w.todos, cb.text);
      IsAuthorized(cb.user, channelName, moderators) && cb.kind == Toggle ==>
        && (target.None? ==> r == Effect(w, NotFound))
        && (target.Some? ==> r == Effect(w.(todos := ToggleTodo(w.todos, target.value)), Success))
    ensures IsAuthorized(cb.user, channelName, moderators) && cb.kind == Clear ==>
      r == Effect(w.(todos := []), Success)
    ensures IsAuthorized(cb.user, channelName, moderators) && cb.kind == ToggleWidget ==>
      r == Effect(w.(widgetVisible := !w.widgetVisible), Success)
  {
    match cb.kind
    case Add => OnAddTodo(w, channelName, moderators, cb.text, cb.user)
    case Delete => OnDeleteTodo(w, channelName, moderators, cb.text, cb.user)
    case Toggle => OnToggleTodo(w, channelName, moderators, cb.text, cb.user)
    case Clear => OnClearTodos(w, channelName, moderators, cb.user)
    case ToggleWidget => OnToggleWidget(w, channelName, moderators, cb.user)
  }
}

=== FILE: words.dfy ===
/**
 * `String.prototype.split` on a one-character separator and `Array.prototype.join`.
 * `Split(s, c)` cuts at every occurrence of `c`, so it has one more part than `s`
 * has separators, and an empty string splits into one empty part.
 */
module Words {

  function Split(s: string, sep: char): (parts: seq<string>)
    ensures |parts| >= 1
    ensures forall i :: 0 <= i < |parts| ==> sep !in parts[i]
    decreases |s|
  {
    if |s| == 0 then [""]
    else
      var rest := Split(s[1..], sep);
      if s[0] == sep then [""] + rest
      else [[s[0]] + rest[0]] + rest[1..]
  }

  function Join(parts: seq<string>, sep: char): (s: string)
    ensures |parts| > 0 ==> |parts[0]| <= |s| && s[..|parts[0]|] == parts[0]
    decreases |parts|
  {
    if |parts| == 0 then ""
    else if |parts| == 1 then parts[0]
    else parts[0] + [sep] + Join(parts[1..], sep)
  }

  /** `split` cuts at every separator: one more part than the string has separators. */
  lemma {:induction false} SplitCount(s: string, sep: char)
    ensures |Split(s, sep)| == multiset(s)[sep] + 1
    decreases |s|
  {
    if |s| > 0 {
      SplitCount(s[1..], sep);
      assert s == [s[0]] + s[1..];
    }
  }

  /** `join` puts one separator between neighbouring parts and adds none of its own inside them. */
  lemma {:induction false} JoinCount(parts: seq<string>, sep: char)
    requires forall i :: 0 <= i < |parts| ==> sep !in parts[i]
    ensures multiset(Join(parts, sep))[sep] == if |parts| == 0 then 0 else |parts| - 1
    decreases |parts|
  {
    if |parts| > 1 {
      JoinCount(parts[1..], sep);
      assert sep !in parts[0];
    }
  }

  /** Splitting and re-joining with the same separator gives the string back. */
  lemma {:induction false} JoinSplit(s: string, sep: char)
    ensures Join(Split(s, sep), sep) == s
    decreases |s|
  {
    if |s| > 0 {
      var rest := Split(s[1..], sep);
      JoinSplit(s[1..], sep);
      if s[0] == sep {
        assert Split(s, sep)[1..] == rest;
      } else {
        var parts := Split(s, sep);
        if |rest| == 1 {
          assert parts == [[s[0]] + rest[0]];
        } else {
          assert parts[1..] == rest[1..];
          assert Join(rest, sep) == rest[0] + [sep] + Join(rest[1..], sep);
        }
      }
      assert s == [s[0]] + s[1..];
    }
  }

  /** A separator-free prefix followed by the separator becomes the first part. */
  lemma {:induction false} SplitAfterPrefix(p: string, sep: char, t: string)
    requires sep !in p
    ensures Split(p + [sep] + t, sep) == [p] + Split(t, sep)
    decreases |p|
  {
    var s := p + [sep] + t;
    if |p| == 0 {
      assert s[1..] == t;
    } else {
      assert s[1..] == p[1..] + [sep] + t;
      SplitAfterPrefix(p[1..], sep, t);
      assert [p[0]] + p[1..] == p;
    }
  }

  lemma {:induction false} SplitNoSeparator(p: string, sep: char)
    requires sep !in p
    ensures Split(p, sep) == [p]
    decreases |p|
  {
    if |p| > 0 {
      SplitNoSeparator(p[1..], sep);
      assert [p[0]] + p[1..] == p;
    }
  }

  /** Joining separator-free parts and splitting again gives the parts back. */
  lemma {:induction false} SplitJoin(parts: seq<string>, sep: char)
    requires |parts| >= 1
    requires forall i :: 0 <= i < |parts| ==> sep !in parts[i]
    ensures Split(Join(parts, sep), sep) == parts
    decreases |parts|
  {
    if |parts| == 1 {
      SplitNoSeparator(parts[0], sep);
    } else {
      SplitJoin(parts[1..], sep);
      SplitAfterPrefix(parts[0], sep, Join(parts[1..], sep));
    }
  }

  /**
   * The first part runs up to the first separator and the remaining parts are the
   * split of what follows it.
   */
  lemma SplitAtFirst(s: string, sep: char, i: nat)
    requires i < |s| && s[i] == sep && sep !in s[..i]
    ensures Split(s, sep)[0] == s[..i]
    ensures Split(s, sep)[1..] == Split(s[i + 1..], sep)
  {
    assert s == s[..i] + [sep] + s[i + 1..];
    SplitAfterPrefix(s[..i], sep, s[i + 1..]);
  }

  lemma SplitWithout(s: string, sep: char)
    requires sep !in s
    ensures Split(s, sep) == [s]
  {
    SplitNoSeparator(s, sep);
  }

  /** Joining everything after the first part gives the text after the first separator. */
  lemma JoinTail(s: string, sep: char, i: nat)
    requires i < |s| && s[i] == sep && sep !in s[..i]
    ensures Join(Split(s, sep)[1..], sep) == s[i + 1..]
  {
    SplitAtFirst(s, sep, i);
    JoinSplit(s[i + 1..], sep);
  }
}

=== FILE: wrappers.dfy ===
/** The optional value used wherever the source returns `null`, `-1` or `NaN`. */
module Wrappers {

  datatype Option<+T> = None | Some(value: T)
}
